=== FILE: README.md ===
# A verified model of a JSON tree builder and walker

This project models the core of `hugsdevil/json`, a small Go package. The
package reads a JSON document from a tokenizer into a tree of linked `Node`s
and walks that tree with a visitor function. The model covers:

- `parse.go`: `Parse`, `parse`, `parseKey` and `parseValue`. That is the
  object loop, the array loop, the private end-of-bracket signal `eob`, and
  primitive leaves.
- `node.go`: the `NodeType` names, `tokenToNodeType`, the `Node` fields,
  `Root`, the five link mutators, `String` with its 100-character cut,
  `Walk`/`walk` with the `SkipNode` rule, and the `SkipArrayNotZero` filter.

The model takes the source's own form:

- `Node` is a class whose fields the methods update in place.
- The tokenizer is a `Decoder` object with a cursor.
- `parseValue` and its two loops are methods with loop invariants.
- `walk` is a recursive method with its sibling loop.

Every parser and walker method is proved against a pure specification:

- `TreeSpec.ParseValue` and friends say what a parse returns, as a `Tree`
  value.
- `WalkSpec.Walk` says what a walk visits and returns, over such trees.

Lemmas about those functions carry the promises of the source:

- Every parsed tree has structural paths, consecutive indices and depths one
  level apart.
- Parsing the tokens of any such tree gives it back.
- A walk visits the pruned document-order listing and stops at the first
  fatal error.
- With `SkipArrayNotZero`, the handler sees exactly the document with every
  array cut down to its first element.

Files:

- `wrappers.dfy`: `Option` and `Result`.
- `tokens.dfy`: tokens, `NodeType`, `tokenToNodeType` and `NodeType.String`.
- `tree_spec.dfy`: the pure tree and the pure parse.
- `tree_facts.dfy`: well-formedness and the round trip.
- `nodes.dfy`: the `Node` class, its mutators, `String`, and the invariant
  `Builds`. `Builds` ties linked nodes to the tree they stand for.
- `parser.dfy`: the heap builder.
- `walk_spec.dfy` and `walk_facts.dfy`: the pure walk and what it visits.
- `walker.dfy`: `walk` over linked nodes.
- `document.dfy`: Parse followed by Walk, and what a parsed tree looks like node by node.

## Model

| member | source | states |
|---|---|---|
| Tokens.TokenToNodeType | node.go:40-62 | `{` gives Object, `[` gives Array, and any other delimiter gives Error. A string gives String, a bool gives Bool, a number gives Number, nil gives Null, and anything else gives Error. Each direction of each case is stated as an if-and-only-if. |
| Tokens.TypeName | node.go:21-38 | The lower-case name of each named type. "error" exactly for ErrorNode and for every value past NullNode in the uint32 range. |
| Tokens.TypeNameInjective | node.go:21-38 | Distinct named types print differently. |
| Nodes.Node.constructor | parse.go:83-89 | A new node has the given parent, path, key, index and depth. Every other field is at its zero value: Type is ErrorNode, Value is nil, Length is 0, and there are no links. |
| Nodes.Node.Root | node.go:78-84 | The loop up the Parent links returns the last node of the ancestor chain. That node has no parent. A node without a parent is its own root. |
| Nodes.Node.SetLastChild | node.go:102-109 | Afterwards LastChild is `last` and `last.Parent` is the node. An old last child is linked both ways to `last`. FirstChild is untouched, so it stays nil on a node that had no children. A chained or linked child list stays so with `last` appended. |
| Nodes.Node.SetFirstChild | node.go:93-100 | The mirror image at the front. LastChild is untouched. A linked child list stays linked with `first` prepended. |
| Nodes.Node.SetParent | node.go:86-91 | The node becomes `parent`'s last child. When it already had a parent, that old parent gets `parent` appended as its last child, and the node is not unlinked from it: the old parent's last child L0, if any, and `parent` are linked both ways. If the new parent had no children, the old parent's children stay chained, now followed by `parent`, and the node keeps its own back link. If the new parent already had a last child L, the node is linked after L both ways; its old predecessor still points at it, so the old chain is broken. Links Go never writes stay as they were: `parent`'s Parent and back link when the node had no parent, and `parent`'s forward link unless `parent` was itself someone's last child. |
| Nodes.Node.SetPrevSibling | node.go:111-118 | `prev` is spliced in before the node, linked both ways with both neighbours. A consistent sibling chain stays consistent with `prev` inserted. When `prev` already was the node's previous sibling, it ends up as its own previous sibling, as in Go. Only sibling links change. |
| Nodes.Node.SetNextSibling | node.go:120-127 | `next` is spliced in after the node, with the same guarantees as SetPrevSibling. When `next` already was the node's next sibling, it ends up as its own next sibling. |
| Nodes.Node.String | node.go:129-149 | Always starts with the path-and-type header. It is exactly the header when Value is nil; otherwise the header is followed by the key part and then the value. For a string node holding a string, the value is printed by Quoted, so the 100-character cut applies to String itself. |
| Nodes.Quoted | node.go:134-142 | A string value is printed in quotes. A value over 100 characters is cut to its first 100, followed by `..."`. The result's length and contents are stated for both cases. |
| Parser.Decoder.Token | parse.go:48-51 | Yields the next token and advances the cursor. At the end it reports the tokenizer's error and does not move. |
| Parser.ParseKey | parse.go:47-62 | Reads one token and agrees with TreeSpec.ParseKey: a string key, `eob` for `}`, an invalid-key error for anything else, or the tokenizer's error. |
| Parser.ParseValue | parse.go:64-147 | Agrees with TreeSpec.ParseValue on the cursor and the error. On success it returns the very node it was given, and that node's subtree holds the parsed tree. |
| Parser.ParseMembers | parse.go:71-108 | The object loop agrees with TreeSpec.ParseMembers. On success the node's children hold the parsed members, in order, linked through FirstChild, the sibling links and LastChild. |
| Parser.ParseElements | parse.go:111-139 | The array loop agrees with TreeSpec.ParseElements, with the same linking guarantees. |
| Parser.ParseMember | parse.go:75-105 | One turn of the object loop: a key, a new child with path `parent.path.key` and index `i`, its value, and the link after `prev`. An error leaves the children as they were. |
| Parser.ParseElement | parse.go:115-136 | One turn of the array loop: a new child with path `parent.path[i]`, no key and index `i`, its value, and the link after `prev`. |
| Parser.ParseChild | parse.go:91-105 | Parses one child's value. Only on success is the child appended to the parent's children and footprint. |
| Parser.Adopt | parse.go:99-105 | Child 0 becomes FirstChild. A later child is linked both ways after the previous one. The children stay built. |
| Parser.Parse | parse.go:10-42 | The root is `$` with index 0, depth 0, no key and no parent. On success the result holds exactly the tree TreeSpec.Parse returns, in fresh nodes. On failure it is that error and no tree. |
| TreeSpec.ParseKey | parse.go:47-62 | `eob` exactly when the token is `}`. A key exactly when it is a string. Otherwise an invalid-key error naming the token, or the tokenizer's error at the end of input. |
| TreeSpec.ParseValue | parse.go:64-147 | Consumes at least one token when any is left. A successful result carries the path, key, index and depth it was given. |
| TreeSpec.ParseMembers | parse.go:74-106 | The object loop never lets `eob` escape as its error. |
| TreeSpec.ParseElements | parse.go:114-137 | The array loop never lets `eob` escape as its error. |
| TreeSpec.Parse | parse.go:10-42 | parse reads one value into the root. Empty input gives the tokenizer's error. A parsed root is `$` at index 0 and depth 0, with no key. TreeFacts.ParsedRoot and TreeFacts.ParseRoundTrip characterise it fully. |
| TreeSpec.DecimalRoundTrip | parse.go:117 | The `%d` printed into an element's path reads back as the index. |
| TreeSpec.ElementPathInjective | parse.go:117 | Two elements of one array never share a path. |
| TreeFacts.ValueWellFormed | parse.go:64-147 | Every parsed value is well-formed. A collection has no value, its children are numbered 0, 1, 2, … one level deeper, and their paths are built structurally. A leaf has no children, a non-bracket token as its value, and that token's type. |
| TreeFacts.MembersWellFormed | parse.go:74-106 | Every member the object loop builds is child number `i` of its object, with path `path.key`, and is well-formed. |
| TreeFacts.ElementsWellFormed | parse.go:114-137 | Every element the array loop builds is child number `i` of its array, with path `path[i]` and no key, and is well-formed. |
| TreeFacts.ParsedRoot | parse.go:31-42 | A successful parse returns a well-formed root `$` at index 0 and depth 0, with no key. |
| TreeFacts.ValueRoundTrip | parse.go:64-147 | Parsing the tokens of a well-formed tree rebuilds it and stops right after its last token. |
| TreeFacts.ParseRoundTrip | parse.go:10-42 | The token stream of a well-formed root parses back to that root, whatever tokens follow it. |
| TreeFacts.EobEscapes | parse.go:10-17 | A document that starts with `}` or `]` fails to parse with the end-of-bracket signal: `eob` escapes Parse. |
| TreeFacts.ValueTruncated | parse.go:64-147 | A value whose tokens stop before its last one fails with the tokenizer's error, at any depth, after reading all the input. |
| TreeFacts.MembersTruncated | parse.go:74-97 | The object loop over a cut-short member list returns the tokenizer's error, from a key or from a member's value, instead of a partial object. |
| TreeFacts.ElementsTruncated | parse.go:114-128 | The array loop over a cut-short element list returns the tokenizer's error instead of a partial array. |
| TreeFacts.ParseTruncated | parse.go:10-17 | Every proper prefix of a document, the empty one and one missing its closing bracket included, makes Parse fail with the tokenizer's error and return no tree. |
| TreeFacts.MembersBadKey | parse.go:57-60 | After any number of well-formed members, a token in key position that is neither a string nor `}` ends the object loop with the invalid-key error naming it. |
| TreeFacts.ParseBadKey | parse.go:75-81 | An object document whose members are followed by such a key makes the whole Parse fail with that invalid-key error, whatever follows. |
| Document.ParsedChildren | parse.go:83-89 | In a parsed subtree, every child node has its container as Parent, depth one more, its position as Index, and path `path.key` in an object or `path[i]` with no key in an array. Each child is itself a parsed subtree, so this holds at every level. |
| Document.ParseAndWalk | node.go:168-205 | Parse followed by Walk from the root returns exactly WalkSpec.Walk of the parsed tree. A failed parse returns its error and walks nothing. |
| Nodes.BuildsLinked | parse.go:99-107 | In a built subtree, FirstChild, LastChild and the sibling links describe the children exactly, in order. |
| WalkSpec.Walk | node.go:178-205 | walk as a function over trees. It visits at most one node per tree node, visits nothing exactly when there is no start node, and visits the start node first. A fatal error is always the one the visitor returned for the last node visited. WalkSpec.WalkIsScan characterises it fully. |
| WalkSpec.WalkIsScan | node.go:178-205 | The walk offers the visitor the document-order listing of the forest. Each skipped node is kept without its subtree and its later siblings are dropped. The walk stops at the first fatal error. Without one, it returns SkipNode exactly when the start node or a later sibling was skipped. |
| WalkSpec.ScanFails | node.go:183-200 | Once some offered node fails, the walk ends at the first such node with its error. |
| WalkFacts.WalkOutcome | node.go:178-205 | What is visited is a prefix of the pruned listing. A fatal error happens exactly when the listing holds a failing node, and the walk then ends on it. Otherwise the whole listing is visited. The result is SkipNode exactly when the top level was skipped, and nil exactly when it was not. |
| WalkFacts.WalkAll | node.go:178-205 | With a visitor that always returns nil, the walk visits the start node, its subtree in pre-order, then each later sibling with its subtree, and returns nil. |
| WalkFacts.WalkAllFromRoot | node.go:168-205 | From the root, such a walk visits every node exactly once, the root first. |
| WalkFacts.PruneCut | node.go:183-203 | For the first skipped sibling, the skipped node keeps no subtree, every later sibling is dropped, and the earlier siblings stay. |
| WalkFacts.SkipArrayNotZeroDecides | node.go:153-166 | The filter never fails a walk. It skips exactly the elements of an array with a positive index. |
| WalkFacts.HandlerSeesFirstElements | node.go:153-205 | Walking a parsed document with the filter returns nil. The handler is called once per node of the document with every array cut to its first element, in document order. |
| WalkFacts.NoLaterElementVisited | node.go:153-205 | With the filter, element 2 or later of an array is never offered to the visitor. |
| Walker.BuildsChain | node.go:192-203 | From a built node without a next sibling, such as the root Parse returns, FirstChild and NextSibling links lead to nodes that hold exactly the node's tree: each node its subtree's fields, and its children in order. |
| Walker.Visit | node.go:183-190 | One node's turn of walk, as for the start node and in each turn of the sibling loop (node.go:194-200). The visitor is shown the node's view. When it returns nil, the node's children are walked and the result equals WalkSpec.Walk of its subtree. |
| Walker.WalkFrom | node.go:178-205 | walk, with its recursion into FirstChild and its NextSibling loop, returns exactly what WalkSpec.Walk returns for the trees the chain holds. |
| Walker.WalkNode | node.go:168-173 | A nil node gives the "nil root node" error without calling the visitor. Otherwise the result is that of walk. |
| Walker.SkipArrayNotZero | node.go:153-166 | Gives SkipNode exactly when the node's parent is an array and its index is positive, and nil otherwise. This is the function WalkFacts reasons about. |

## Left out

- The tokenizer (`encoding/json.Decoder`) and the `io.Reader` are not modelled. They are replaced by `Decoder`, a sequence of tokens with a cursor, followed by one error string once the tokens run out. The model does not assume the tokenizer's well-formedness guarantees: non-string keys and closing delimiters in value position stay reachable.
- Numbers are opaque lexemes. The decoder's `float64` conversion is not modelled.
- Error messages are not modelled. `fmt.Errorf` text, the "invalid key string" message and the "nil root node" message are error kinds (`TreeSpec.ParseError`, `WalkSpec.WalkError`), not strings.
- Nodes.ValueText: the `%v` formatting of non-string values is approximated by the token's own text, so only the string branch is exact.
- Nodes.Quoted: cuts after 100 characters of a `seq<char>`. Go cuts after 100 bytes, so a multi-byte UTF-8 character near the boundary is not modelled.
- Nodes.Node.Root: requires a finite ancestor chain as a ghost argument. Go's loop never ends on a cyclic Parent chain, and that case is not modelled.
- Parser.ParseValue: requires the node it fills to be blank, as parse and both loops allocate it. Go's parseValue accepts any node, but it is only ever called on new nodes.
- Walker.WalkFrom: the visitor is a pure function of what it is shown (the node's fields and its parent's type). A Go closure with side effects, such as the handler passed to SkipArrayNotZero, is modelled by the list of nodes visited. What the handler sees is `WalkFacts.Handled` of that list.
- Nodes.Node.SetPrevSibling: requires `prev` to differ from the node. Go accepts a node as its own previous sibling and builds a self-loop; no caller in the package does this, and that case is not modelled.
- Nodes.Node.SetNextSibling: requires `next` to differ from the node, for the same reason.
- Walker.WalkNode: Go's `(*Node).Walk` method on a possibly nil receiver becomes a function taking a possibly null node.
- Walker.WalkFrom: takes as ghost arguments the trees its chain of nodes holds and a set of nodes that bounds what it reads. For a parsed root, Walker.BuildsChain provides both.
- Parser.ParseMember, Parser.ParseElement, Parser.ParseChild and Parser.Adopt split the loop bodies of parseValue into methods, and Walker.Visit splits out the per-node step of walk. The statements are the same, in the same order.
- Node.Length is declared but never written by the builder, so it is not given any meaning beyond staying 0.
- The example in `node_test.go` reads a file and compares printed output. It is not part of this model.

=== FILE: document.dfy ===
/**
 * The package as a caller uses it: Parse a token stream, then Walk the root
 * it returns. What the builder leaves in the heap is stated node by node, and
 * the walk of a parsed root is the pure walk of the parsed tree.
 */
module Document {
  import opened Wrappers
  import opened Tokens
  import opened TreeSpec
  import opened TreeFacts
  import opened Nodes
  import opened WalkSpec
  import Parser
  import Walker

  /**
   * In a parsed subtree, each child node points back at its parent, sits one
   * level deeper, carries its position as Index and a path built from the
   * parent's (`path.key` in an object, `path[i]` with no key in an array), and
   * is itself a parsed subtree, so the same holds all the way down.
   */
  lemma {:induction false} ParsedChildren(n: Node, t: Tree)
    requires Builds(n, t) && WellFormed(t)
    ensures |n.Kids| == |t.kids|
    ensures forall i | 0 <= i < |n.Kids| ::
      && n.Kids[i].Parent == n
      && n.Kids[i].Depth == n.Depth + 1
      && n.Kids[i].Index == i
      && (n.Type == ObjectNode ==> n.Kids[i].Path == MemberPath(n.Path, n.Kids[i].Key))
      && (n.Type == ArrayNode ==> n.Kids[i].Key == "" && n.Kids[i].Path == ElementPath(n.Path, i))
      && Builds(n.Kids[i], t.kids[i]) && WellFormed(t.kids[i])
  {
    assert Forest(n, t.kids) && Links(n) && Holds(n.Kids, t.kids);
    forall i | 0 <= i < |n.Kids|
      ensures && n.Kids[i].Parent == n
              && n.Kids[i].Depth == n.Depth + 1
              && n.Kids[i].Index == i
              && (n.Type == ObjectNode ==> n.Kids[i].Path == MemberPath(n.Path, n.Kids[i].Key))
              && (n.Type == ArrayNode ==> n.Kids[i].Key == "" && n.Kids[i].Path == ElementPath(n.Path, i))
              && Builds(n.Kids[i], t.kids[i]) && WellFormed(t.kids[i])
    {
      var k := t.kids[i];
      assert Builds(n.Kids[i], k);
      if t.typ == ObjectNode || t.typ == ArrayNode {
        assert IsChild(t.path, t.depth, t.typ, i, k) && WellFormed(k);
      }
    }
  }

  /**
   * Parse, then Walk from the root: on a successful parse the walk returns
   * exactly what WalkSpec.Walk returns for the parsed tree; on a failed one
   * the parse error comes back and nothing is walked.
   */
  method ParseAndWalk(input: seq<Token>, failure: string, fn: Visitor) returns (r: Result<Outcome, ParseError>)
    ensures var spec := TreeSpec.Parse(Stream(input, failure));
      && (spec.Ok? ==> r == Ok(Walk([spec.value], None, fn)))
      && (spec.Err? ==> r == Err(spec.error))
  {
    var root := Parser.Parse(input, failure);
    if root.Err? {
      return Err(root.error);
    }
    ghost var t := TreeSpec.Parse(Stream(input, failure)).value;
    Walker.BuildsChain(root.value, t);
    var outcome := Walker.WalkNode(root.value, fn, root.value.Repr, [t]);
    return Ok(outcome);
  }
}

=== FILE: nodes.dfy ===
/**
 * The Node of node.go: its fields, Root, the five link mutators and String,
 * and the invariant `Builds` that ties a linked subtree in the heap to the
 * pure Tree it stands for.
 */
module Nodes {
  import opened Tokens
  import opened TreeSpec

  class Node {
    var Parent: Node?
    var FirstChild: Node?
    var LastChild: Node?
    var PrevSibling: Node?
    var NextSibling: Node?

    var Path: string
    var Key: string
    /** `Null` stands for Go's nil interface. */
    var Value: Token
    var Type: NodeType
    var Length: int
    var Index: int
    var Depth: int

    /** The children in sibling order, and the nodes of the subtree rooted here. */
    ghost var Kids: seq<Node>
    ghost var Repr: set<Node>

    /**
     * The composite literal the builder allocates: the given parent, path,
     * key, index and depth, every other field at its zero value.
     */
    constructor (parent: Node?, path: string, key: string, index: int, depth: int)
      ensures Parent == parent && Path == path && Key == key && Index == index && Depth == depth
      ensures FirstChild == null && LastChild == null && PrevSibling == null && NextSibling == null
      ensures Value == Null && Type == ErrorNode && Length == 0
      ensures Kids == [] && Repr == {this}
    {
      Parent, Path, Key, Index, Depth := parent, path, key, index, depth;
      FirstChild, LastChild, PrevSibling, NextSibling := null, null, null, null;
      Value, Type, Length := Null, ErrorNode, 0;
      Kids, Repr := [], {this};
    }

    /**
     * Root: follows Parent links up from this node. `chain` is that path of
     * ancestors, this node first; the method returns its last node, the one
     * without a parent.
     */
    method Root(ghost chain: seq<Node>) returns (root: Node)
      requires IsAncestry(this, chain)
      ensures root == chain[|chain| - 1] && root.Parent == null
      ensures Parent == null ==> root == this
    {
      root := this;
      ghost var k := 0;
      while root.Parent != null
        invariant IsAncestry(this, chain)
        invariant 0 <= k < |chain| && root == chain[k]
        invariant root.Parent == if k + 1 < |chain| then chain[k + 1] else null
        invariant root == this || Parent != null
        decreases |chain| - k
      {
        root := root.Parent;
        k := k + 1;
      }
    }

    /**
     * SetLastChild: links `last` after the current last child (if any) and
     * makes it the last child. The front of the list is not touched, so on a
     * node without children FirstChild stays nil.
     */
    method SetLastChild(last: Node, ghost kids: seq<Node>)
      modifies this`LastChild, last`Parent, last`PrevSibling
      modifies (if LastChild == null then {} else {LastChild})`NextSibling
      ensures LastChild == last && last.Parent == this
      ensures FirstChild == old(FirstChild)
      ensures old(LastChild) != null ==> old(LastChild).NextSibling == last && last.PrevSibling == old(LastChild)
      ensures old(LastChild) == null ==> last.PrevSibling == old(last.PrevSibling)
      ensures old(Chained(kids)) && kids != [] && old(LastChild) == kids[|kids| - 1] && old(LastChild.NextSibling) == null
              && last !in kids
        ==> Chained(kids + [last])
      ensures old(Linked(this, kids)) && kids != [] && last !in kids && last != this && old(last.NextSibling) == null
        ==> Linked(this, kids + [last])
      ensures old(Linked(this, [])) ==> FirstChild == null
    {
      if LastChild != null {
        LastChild.NextSibling := last;
        last.PrevSibling := LastChild;
      }
      LastChild := last;
      last.Parent := this;
    }

    /** SetFirstChild: the mirror image of SetLastChild at the front of the list. */
    method SetFirstChild(first: Node, ghost kids: seq<Node>)
      modifies this`FirstChild, first`Parent, first`NextSibling
      modifies (if FirstChild == null then {} else {FirstChild})`PrevSibling
      ensures FirstChild == first && first.Parent == this
      ensures LastChild == old(LastChild)
      ensures old(FirstChild) != null ==> old(FirstChild).PrevSibling == first && first.NextSibling == old(FirstChild)
      ensures old(FirstChild) == null ==> first.NextSibling == old(first.NextSibling)
      ensures old(Chained(kids)) && kids != [] && old(FirstChild) == kids[0] && old(FirstChild.PrevSibling) == null
              && first !in kids
        ==> Chained([first] + kids)
      ensures old(Linked(this, kids)) && kids != [] && first !in kids && first != this && old(first.PrevSibling) == null
        ==> Linked(this, [first] + kids)
      ensures old(Linked(this, [])) ==> LastChild == null
    {
      if FirstChild != null {
        FirstChild.PrevSibling := first;
        first.NextSibling := FirstChild;
      }
      FirstChild := first;
      first.Parent := this;
    }

    /**
     * SetParent: appends this node to `parent`'s children. When it already has
     * a parent, that old parent first gets `parent` (not this node) appended as
     * its last child; this node is not unlinked, so it stays in the old
     * parent's sibling chain, now followed by `parent`.
     */
    method SetParent(parent: Node, ghost siblings: seq<Node>)
      modifies this`Parent, this`PrevSibling, parent`LastChild, parent`Parent, parent`PrevSibling
      modifies (if Parent == null then {} else {Parent})`LastChild
      modifies (if Parent == null || Parent.LastChild == null then {} else {Parent.LastChild})`NextSibling
      modifies (if Parent == null then {} else {parent})`NextSibling
      modifies (if parent.LastChild == null then {} else {parent.LastChild})`NextSibling
      ensures Parent == parent && parent.LastChild == this
      ensures old(Parent) == null && old(parent.LastChild) != null
        ==> old(parent.LastChild).NextSibling == this && PrevSibling == old(parent.LastChild)
      ensures old(Parent) != null && old(Parent) != parent && parent != this
        ==> old(Parent).LastChild == parent && parent.Parent == old(Parent)
      ensures old(Parent) != null ==> old(Parent).FirstChild == old(Parent.FirstChild)
      ensures && old(Parent) != null && old(Linked(Parent, siblings)) && this in siblings
              && old(Parent) != parent && parent != this && parent !in siblings && old(parent.LastChild) == null
        ==> Chained(siblings + [parent]) && old(Parent).FirstChild == siblings[0] && old(Parent).LastChild == parent
      ensures && old(Parent) != null && old(Parent) != parent && parent != this
              && old(parent.LastChild) != null && old(parent.LastChild) != this && old(parent.LastChild) != parent
        ==> old(parent.LastChild).NextSibling == this && PrevSibling == old(parent.LastChild)
      ensures && old(Parent) != null && old(Parent) != parent && parent != this
              && old(Parent.LastChild) != null && old(Parent.LastChild) != old(parent.LastChild)
        ==> old(Parent.LastChild).NextSibling == parent && parent.PrevSibling == old(Parent.LastChild)
      ensures old(Parent) == null && parent != this
        ==> parent.Parent == old(parent.Parent) && parent.PrevSibling == old(parent.PrevSibling)
      ensures && parent != this && old(Parent) != parent && old(parent.LastChild) != parent
              && (old(Parent) == null || old(Parent.LastChild) != parent)
        ==> parent.NextSibling == old(parent.NextSibling)
      ensures old(parent.LastChild) == null && parent != this && old(Parent) != parent
        ==> PrevSibling == old(PrevSibling)
    {
      if Parent != null {
        Parent.SetLastChild(parent, siblings);
      }
      parent.SetLastChild(this, []);
    }

    /**
     * SetPrevSibling: splices `prev` in between this node and its old previous
     * sibling. Parent and child links are not touched.
     */
    method SetPrevSibling(prev: Node, ghost chain: seq<Node>, ghost i: nat)
      requires prev != this
      modifies this`PrevSibling, prev`PrevSibling, prev`NextSibling
      modifies (if PrevSibling == null then {} else {PrevSibling})`NextSibling
      ensures PrevSibling == prev && prev.NextSibling == this
      ensures old(PrevSibling) != null && old(PrevSibling) != prev
        ==> prev.PrevSibling == old(PrevSibling) && old(PrevSibling).NextSibling == prev
      ensures old(PrevSibling) == null ==> prev.PrevSibling == old(prev.PrevSibling)
      ensures old(PrevSibling) == prev ==> prev.PrevSibling == prev
      ensures old(Chained(chain)) && 0 < i < |chain| && chain[i] == this && prev !in chain && Distinct(chain)
        ==> Chained(chain[..i] + [prev] + chain[i..])
    {
      if PrevSibling != null {
        prev.PrevSibling := PrevSibling;
        PrevSibling.NextSibling := prev;
      }
      PrevSibling := prev;
      prev.NextSibling := this;
      if old(Chained(chain)) && 0 < i < |chain| && chain[i] == this && prev !in chain && Distinct(chain) {
        var c := chain[..i] + [prev] + chain[i..];
        assert old(chain[i - 1].NextSibling) == this && old(PrevSibling) == chain[i - 1];
        forall j | 0 <= j < |c| - 1
          ensures c[j].NextSibling == c[j + 1] && c[j + 1].PrevSibling == c[j]
        {
          if j < i - 1 {
            assert c[j] == chain[j] && c[j + 1] == chain[j + 1];
            assert old(chain[j].NextSibling) == chain[j + 1] && old(chain[j + 1].PrevSibling) == chain[j];
          } else if j == i - 1 {
            assert c[j] == chain[i - 1] && c[j + 1] == prev;
          } else if j == i {
            assert c[j] == prev && c[j + 1] == this;
          } else {
            assert c[j] == chain[j - 1] && c[j + 1] == chain[j];
            assert old(chain[j - 1].NextSibling) == chain[j] && old(chain[j].PrevSibling) == chain[j - 1];
          }
        }
      }
    }

    /**
     * SetNextSibling: splices `next` in between this node and its old next
     * sibling. Parent and child links are not touched.
     */
    method SetNextSibling(next: Node, ghost chain: seq<Node>, ghost i: nat)
      requires next != this
      modifies this`NextSibling, next`NextSibling, next`PrevSibling
      modifies (if NextSibling == null then {} else {NextSibling})`PrevSibling
      ensures NextSibling == next && next.PrevSibling == this
      ensures old(NextSibling) != null && old(NextSibling) != next
        ==> next.NextSibling == old(NextSibling) && old(NextSibling).PrevSibling == next
      ensures old(NextSibling) == null ==> next.NextSibling == old(next.NextSibling)
      ensures old(NextSibling) == next ==> next.NextSibling == next
      ensures old(Chained(chain)) && i + 1 < |chain| && chain[i] == this && next !in chain && Distinct(chain)
        ==> Chained(chain[..i + 1] + [next] + chain[i + 1..])
    {
      if NextSibling != null {
        next.NextSibling := NextSibling;
        NextSibling.PrevSibling := next;
      }
      NextSibling := next;
      next.PrevSibling := this;
      if old(Chained(chain)) && i + 1 < |chain| && chain[i] == this && next !in chain && Distinct(chain) {
        var c := chain[..i + 1] + [next] + chain[i + 1..];
        assert old(chain[i + 1].PrevSibling) == this && old(NextSibling) == chain[i + 1];
        forall j | 0 <= j < |c| - 1
          ensures c[j].NextSibling == c[j + 1] && c[j + 1].PrevSibling == c[j]
        {
          if j < i {
            assert c[j] == chain[j] && c[j + 1] == chain[j + 1];
            assert old(chain[j].NextSibling) == chain[j + 1] && old(chain[j + 1].PrevSibling) == chain[j];
          } else if j == i {
            assert c[j] == this && c[j + 1] == next;
          } else if j == i + 1 {
            assert c[j] == next && c[j + 1] == chain[i + 1];
          } else {
            assert c[j] == chain[j - 1] && c[j + 1] == chain[j];
            assert old(chain[j - 1].NextSibling) == chain[j] && old(chain[j].PrevSibling) == chain[j - 1];
          }
        }
      }
    }

    /** The first part of String: path and type name. */
    function Header(): (s: string)
      reads this`Path, this`Type
    {
      "path: \"" + Path + "\", type: \"" + TypeName(Type) + "\""
    }

    /**
     * String: path and type, then, unless Value is nil, key and value. A string
     * node's value is quoted and cut to its first 100 characters.
     */
    function String(): (s: string)
      reads this`Path, this`Type, this`Key, this`Value
      ensures Header() <= s
      ensures Value == Null <==> s == Header()
      ensures Value != Null ==> Header() + ", key: \"" + Key + "\", value: " <= s
      ensures Value != Null && Type == StringNode && Value.Str?
        ==> s == Header() + ", key: \"" + Key + "\", value: " + Quoted(Value.s)
    {
      if Value == Null then Header()
      else Header() + ", key: \"" + Key + "\", value: " + ValueText(Type, Value)
    }
  }

  // ---------------------------------------------------------------------
  // Printing values
  // ---------------------------------------------------------------------

  /** A string value as String prints it: quoted, and cut after 100 characters. */
  function Quoted(v: string): (r: string)
    ensures |v| <= 100 ==> |r| == |v| + 2 && r[1..|r| - 1] == v
    ensures |v| > 100 ==> |r| == 105 && r[1..101] == v[..100] && r[101..] == "...\""
    ensures r[0] == '"' && r[|r| - 1] == '"'
  {
    if |v| > 100 then "\"" + v[..100] + "...\"" else "\"" + v + "\""
  }

  /**
   * `%v` of the value: a string node's string is quoted (and a non-string value
   * in a string node prints as `<nil>`); other tokens print as their text.
   */
  function ValueText(typ: NodeType, v: Token): string {
    if typ == StringNode then (if v.Str? then Quoted(v.s) else "<nil>")
    else match v
      case Delim(c) => [c]
      case Str(s) => s
      case Bool(b) => if b then "true" else "false"
      case Num(text) => text
      case Null => "<nil>"
      case Other => "?"
  }

  // ---------------------------------------------------------------------
  // Links
  // ---------------------------------------------------------------------

  predicate Distinct(ns: seq<Node>) {
    forall i, j | 0 <= i < j < |ns| :: ns[i] != ns[j]
  }

  /** `chain` runs from a node up through its parents to one without a parent. */
  ghost predicate IsAncestry(n: Node, chain: seq<Node>)
    reads chain`Parent
  {
    && chain != [] && chain[0] == n
    && (forall i | 0 <= i < |chain| - 1 :: chain[i].Parent == chain[i + 1])
    && chain[|chain| - 1].Parent == null
  }

  /** Neighbours in `chain` point at each other through NextSibling and PrevSibling. */
  ghost predicate Chained(chain: seq<Node>)
    reads chain`PrevSibling, chain`NextSibling
  {
    forall i | 0 <= i < |chain| - 1 :: chain[i].NextSibling == chain[i + 1] && chain[i + 1].PrevSibling == chain[i]
  }

  /**
   * `kids` are exactly the children of `n`, in order: the first and last are
   * FirstChild and LastChild, each has `n` as Parent, neighbours are linked
   * both ways, and the ends have no sibling outside the list.
   */
  ghost predicate Linked(n: Node, kids: seq<Node>)
    reads n`FirstChild, n`LastChild
    reads kids`Parent, kids`PrevSibling, kids`NextSibling
  {
    && (kids == [] ==> n.FirstChild == null && n.LastChild == null)
    && (kids != [] ==> n.FirstChild == kids[0] && n.LastChild == kids[|kids| - 1])
    && (forall i | 0 <= i < |kids| :: kids[i].Parent == n)
    && (kids != [] ==> kids[0].PrevSibling == null && kids[|kids| - 1].NextSibling == null)
    && Chained(kids)
  }

  // ---------------------------------------------------------------------
  // A heap subtree and the tree it stands for
  // ---------------------------------------------------------------------

  /**
   * The subtree rooted at `n` holds tree `t`: `n`'s fields are `t`'s, Length
   * is 0, LastChild is the last of `n.Kids`, and the children hold `t`'s
   * children as `Forest` says. `n`'s own Parent and sibling links are not
   * part of it: they belong to the node above.
   */
  ghost predicate Builds(n: Node, t: Tree)
    reads n`Path, n`Key, n`Value, n`Type, n`Length, n`Index, n`Depth
    reads n`FirstChild, n`LastChild, n`Kids, n`Repr, n.Repr - {n}
    decreases t, 2
  {
    && n in n.Repr
    && n.Path == t.path && n.Key == t.key && n.Value == t.value && n.Type == t.typ
    && n.Index == t.index && n.Depth == t.depth && n.Length == 0
    && n.LastChild == (if n.Kids == [] then null else n.Kids[|n.Kids| - 1])
    && Forest(n, t.kids)
  }

  /**
   * The children of `n` built so far hold `ts`, one per tree and in order:
   * each lies in its own part of `n.Repr` (`Owns`), they are linked under `n`
   * (`Links`), and each holds its tree (`Holds`).
   */
  ghost predicate Forest(n: Node, ts: seq<Tree>)
    reads n`FirstChild, n`Kids, n`Repr, n.Repr - {n}
    decreases ts, 1
  {
    Owns(n) && Links(n) && Holds(n.Kids, ts)
  }

  /** `n.Repr` holds `n` and the disjoint footprints of its children. */
  ghost predicate Owns(n: Node)
    reads n`Kids, n`Repr, n.Repr - {n}
  {
    && n in n.Repr
    && (forall i | 0 <= i < |n.Kids| :: n.Kids[i] in n.Repr && n.Kids[i] != n)
    && (forall i | 0 <= i < |n.Kids| :: n.Kids[i].Repr <= n.Repr && n !in n.Kids[i].Repr)
    && (forall i, j | 0 <= i < j < |n.Kids| :: n.Kids[i].Repr !! n.Kids[j].Repr)
  }

  /**
   * The children are linked under `n`: FirstChild is the first, each has `n`
   * as Parent, neighbours point at each other, and the ends have no sibling
   * outside the list. This is Linked(n, n.Kids) without LastChild: the
   * parse loops set LastChild only once the last child is in, so while they
   * run only this part holds.
   */
  ghost predicate Links(n: Node)
    reads n`FirstChild, n`Kids, n.Kids`Parent, n.Kids`PrevSibling, n.Kids`NextSibling
  {
    && n.FirstChild == (if n.Kids == [] then null else n.Kids[0])
    && (forall i | 0 <= i < |n.Kids| :: n.Kids[i].Parent == n)
    && (n.Kids != [] ==> n.Kids[0].PrevSibling == null && n.Kids[|n.Kids| - 1].NextSibling == null)
    && Chained(n.Kids)
  }

  /** Each of `kids` holds the tree at the same position of `ts`. */
  ghost predicate Holds(kids: seq<Node>, ts: seq<Tree>)
    reads kids`Path, kids`Key, kids`Value, kids`Type, kids`Length, kids`Index, kids`Depth
    reads kids`FirstChild, kids`LastChild, kids`Kids, kids`Repr
    reads set i, o | 0 <= i < |kids| && o in kids[i].Repr && o != kids[i] :: o
    decreases ts, 0
  {
    && |kids| == |ts|
    && (forall i | 0 <= i < |kids| :: Builds(kids[i], ts[i]))
  }

  /** A built node's children are exactly its Kids, in the sense of `Linked`. */
  lemma BuildsLinked(n: Node, t: Tree)
    requires Builds(n, t)
    ensures Linked(n, n.Kids)
  {
  }
}

=== FILE: parser.dfy ===
/**
 * The builder of parse.go over the heap: a token source, parseKey,
 * parseValue with its object and array loops, and Parse. Each method is
 * proved to do what the functions of TreeSpec say, and the nodes it links
 * are proved to hold the tree those functions return.
 */
module Parser {
  import opened Wrappers
  import opened Tokens
  import TreeSpec
  import opened Nodes

  /**
   * The tokenizer: yields `input` one token at a time, then reports
   * `failure` on every further call (the end of the input, or a syntax
   * error, as the tokenizer would report it).
   */
  class Decoder {
    const input: seq<Token>
    const failure: string
    var pos: nat

    constructor (input: seq<Token>, failure: string)
      ensures this.input == input && this.failure == failure && pos == 0
    {
      this.input, this.failure, pos := input, failure, 0;
    }

    /** The stream as the pure parse sees it. */
    function Source(): (s: TreeSpec.Stream)
      ensures s.input == input && s.failure == failure
    {
      TreeSpec.Stream(input, failure)
    }

    /** Token: the next token, or the failure once the input is used up. */
    method Token() returns (r: Result<Token, string>)
      requires pos <= |input|
      modifies this`pos
      ensures old(pos) < |input| ==> r == Ok(input[old(pos)]) && pos == old(pos) + 1
      ensures old(pos) == |input| ==> r == Err(failure) && pos == old(pos)
    {
      if pos == |input| {
        r := Err(failure);
      } else {
        r := Ok(input[pos]);
        pos := pos + 1;
      }
    }
  }

  /** parseKey: one token in key position; `}` ends the object with `Eob`. */
  method ParseKey(dec: Decoder) returns (key: Result<string, TreeSpec.ParseError>)
    requires dec.pos <= |dec.input|
    modifies dec`pos
    ensures dec.pos <= |dec.input|
    ensures (key, dec.pos) == TreeSpec.ParseKey(dec.Source(), old(dec.pos))
  {
    var token := dec.Token();
    if token.Err? {
      return Err(TreeSpec.Tokenizer(token.error));
    }
    if token.value == Delim('}') {
      return Err(TreeSpec.Eob);
    }
    if token.value.Str? {
      return Ok(token.value.s);
    }
    return Err(TreeSpec.InvalidKey(token.value));
  }

  /** A node as the builder allocates it, before parseValue fills it in. */
  ghost predicate Blank(n: Node)
    reads n
  {
    && n.Kids == [] && n.Repr == {n}
    && n.FirstChild == null && n.LastChild == null && n.NextSibling == null && n.PrevSibling == null
    && n.Value == Null && n.Length == 0
  }

  /**
   * What parseValue leaves behind, as TreeSpec.ParseValue describes it for
   * the stream from `pos` on and a node with `n`'s path, key, index and depth:
   * the position after the value, and either `n` holding the tree or the error.
   */
  ghost predicate ValueParsed(dec: Decoder, pos: nat, n: Node, r: Result<Node, TreeSpec.ParseError>)
    requires pos <= |dec.input|
    reads dec`pos, n`Path, n`Key, n`Value, n`Type, n`Length, n`Index, n`Depth
    reads n`FirstChild, n`LastChild, n`Kids, n`Repr, n.Repr - {n}
  {
    var (v, next) := TreeSpec.ParseValue(dec.Source(), pos, n.Path, n.Key, n.Index, n.Depth);
    && dec.pos == next
    && (v.Ok? ==> r == Ok(n) && Builds(n, v.value))
    && (v.Err? ==> r == Err(v.error))
  }

  /**
   * parseValue: reads one value into `parent`. A primitive token becomes its
   * Value and Type; `{` and `[` make it an object or an array and read its
   * children; a closing bracket yields the end-of-bracket signal.
   */
  method ParseValue(dec: Decoder, parent: Node) returns (r: Result<Node, TreeSpec.ParseError>)
    requires dec.pos <= |dec.input| && Blank(parent)
    modifies dec`pos, parent`Type, parent`Value, parent`FirstChild, parent`LastChild, parent`Kids, parent`Repr
    ensures dec.pos <= |dec.input|
    ensures ValueParsed(dec, old(dec.pos), parent, r)
    ensures fresh(parent.Repr - {parent})
    decreases |dec.input| - dec.pos, 0
  {
    var token := dec.Token();
    if token.Err? {
      return Err(TreeSpec.Tokenizer(token.error));
    }
    match token.value
    case Delim('{') =>
      parent.Type := TokenToNodeType(token.value);
      r := ParseMembers(dec, parent);
    case Delim('}') =>
      return Err(TreeSpec.Eob);
    case Delim('[') =>
      parent.Type := TokenToNodeType(token.value);
      r := ParseElements(dec, parent);
    case Delim(']') =>
      return Err(TreeSpec.Eob);
    case _ =>
      parent.Value := token.value;
      parent.Type := TokenToNodeType(token.value);
      ForestEmpty(parent);
      return Ok(parent);
  }

  /**
   * The object loop of parseValue: reads key and value pairs into new
   * children of `parent` until `}`, then sets LastChild.
   */
  method ParseMembers(dec: Decoder, parent: Node) returns (r: Result<Node, TreeSpec.ParseError>)
    requires dec.pos <= |dec.input| && Blank(parent)
    modifies dec`pos, parent`FirstChild, parent`LastChild, parent`Kids, parent`Repr
    ensures dec.pos <= |dec.input|
    ensures var (v, next) := TreeSpec.ParseMembers(dec.Source(), old(dec.pos), parent.Path, parent.Depth, []);
      && dec.pos == next
      && (v.Ok? ==> r == Ok(parent) && Builds(parent, TreeSpec.Tree(parent.Path, parent.Key, Null, parent.Type, parent.Index, parent.Depth, v.value)))
      && (v.Err? ==> r == Err(v.error))
    ensures fresh(parent.Repr - {parent})
    decreases |dec.input| - dec.pos, 3
  {
    ghost var s := dec.Source();
    ghost var start := dec.pos;
    ghost var path, depth := parent.Path, parent.Depth;
    ghost var result := TreeSpec.ParseMembers(s, start, path, depth, []);
    ghost var trees: seq<TreeSpec.Tree> := [];
    var prev: Node? := null;
    var i := 0;
    ForestEmpty(parent);
    while true
      invariant start <= dec.pos <= |dec.input|
      invariant i == |trees| == |parent.Kids| && parent.LastChild == null
      invariant Forest(parent, trees)
      invariant prev == if trees == [] then null else parent.Kids[|trees| - 1]
      invariant fresh(parent.Repr - {parent})
      invariant result == TreeSpec.ParseMembers(s, dec.pos, path, depth, trees)
      decreases |dec.input| - dec.pos
    {
      var curr;
      ghost var tree;
      curr, tree := ParseMember(dec, parent, prev, i, trees);
      if curr.Err? {
        if curr.error == TreeSpec.Eob {
          break;
        }
        return Err(curr.error);
      }
      prev := curr.value;
      trees := trees + [tree];
      i := i + 1;
    }
    label Done:
    parent.LastChild := prev;
    ForestStays@Done(parent, trees);
    Completed(parent, trees);
    return Ok(parent);
  }

  /**
   * The array loop of parseValue: reads values into new children of
   * `parent` until `]`, then sets LastChild.
   */
  method ParseElements(dec: Decoder, parent: Node) returns (r: Result<Node, TreeSpec.ParseError>)
    requires dec.pos <= |dec.input| && Blank(parent)
    modifies dec`pos, parent`FirstChild, parent`LastChild, parent`Kids, parent`Repr
    ensures dec.pos <= |dec.input|
    ensures var (v, next) := TreeSpec.ParseElements(dec.Source(), old(dec.pos), parent.Path, parent.Depth, []);
      && dec.pos == next
      && (v.Ok? ==> r == Ok(parent) && Builds(parent, TreeSpec.Tree(parent.Path, parent.Key, Null, parent.Type, parent.Index, parent.Depth, v.value)))
      && (v.Err? ==> r == Err(v.error))
    ensures fresh(parent.Repr - {parent})
    decreases |dec.input| - dec.pos, 3
  {
    ghost var s := dec.Source();
    ghost var start := dec.pos;
    ghost var path, depth := parent.Path, parent.Depth;
    ghost var result := TreeSpec.ParseElements(s, start, path, depth, []);
    ghost var trees: seq<TreeSpec.Tree> := [];
    var prev: Node? := null;
    var i := 0;
    ForestEmpty(parent);
    while true
      invariant start <= dec.pos <= |dec.input|
      invariant i == |trees| == |parent.Kids| && parent.LastChild == null
      invariant Forest(parent, trees)
      invariant prev == if trees == [] then null else parent.Kids[|trees| - 1]
      invariant fresh(parent.Repr - {parent})
      invariant result == TreeSpec.ParseElements(s, dec.pos, path, depth, trees)
      decreases |dec.input| - dec.pos
    {
      var curr;
      ghost var tree;
      curr, tree := ParseElement(dec, parent, prev, i, trees);
      if curr.Err? {
        if curr.error == TreeSpec.Eob {
          break;
        }
        return Err(curr.error);
      }
      prev := curr.value;
      trees := trees + [tree];
      i := i + 1;
    }
    label Done:
    parent.LastChild := prev;
    ForestStays@Done(parent, trees);
    Completed(parent, trees);
    return Ok(parent);
  }

  /**
   * Parse: reads one value from the token stream into a new root node `$`
   * (index 0, depth 0, no key, no parent). On an error no tree is returned.
   */
  method Parse(input: seq<Token>, failure: string) returns (r: Result<Node, TreeSpec.ParseError>)
    ensures var spec := TreeSpec.Parse(TreeSpec.Stream(input, failure));
      && (spec.Ok? ==> r.Ok? && Builds(r.value, spec.value) && fresh(r.value.Repr))
      && (spec.Ok? ==> r.value.Parent == null && r.value.PrevSibling == null && r.value.NextSibling == null)
      && (spec.Err? ==> r == Err(spec.error))
  {
    var dec := new Decoder(input, failure);
    var root := new Node(null, "$", "", 0, 0);
    r := ParseValue(dec, root);
  }

  /**
   * The step both loops of parseValue share: parse the value of the new
   * child `node` and, when that succeeds, link it under `parent` after
   * `prev`, the child built before it.
   */
  method ParseChild(dec: Decoder, parent: Node, prev: Node?, node: Node, ghost trees: seq<TreeSpec.Tree>)
    returns (r: Result<Node, TreeSpec.ParseError>, ghost t: TreeSpec.Tree)
    requires dec.pos <= |dec.input|
    requires Forest(parent, trees)
    requires prev == if parent.Kids == [] then null else parent.Kids[|parent.Kids| - 1]
    requires Blank(node) && node.Parent == parent && node !in parent.Repr
    modifies dec`pos, node`Type, node`Value, node`FirstChild, node`LastChild, node`Kids, node`Repr, node`PrevSibling
    modifies parent`FirstChild, parent`Kids, parent`Repr, (if prev == null then {} else {prev})`NextSibling
    ensures dec.pos <= |dec.input|
    ensures var (v, next) := TreeSpec.ParseValue(dec.Source(), old(dec.pos), node.Path, node.Key, node.Index, node.Depth);
      && dec.pos == next
      && (v.Ok? ==> r == Ok(node) && t == v.value)
      && (v.Err? ==> r == Err(v.error))
    ensures r.Ok? ==> Forest(parent, trees + [t]) && parent.Kids == old(parent.Kids) + [node]
    ensures r.Ok? ==> parent.Repr == old(parent.Repr) + node.Repr
    ensures r.Err? ==> Forest(parent, trees) && parent.Kids == old(parent.Kids) && parent.Repr == old(parent.Repr)
    ensures fresh(node.Repr - {node})
    decreases |dec.input| - dec.pos, 1
  {
    r := ParseValue(dec, node);
    if r.Ok? {
      t := TreeSpec.ParseValue(dec.Source(), old(dec.pos), node.Path, node.Key, node.Index, node.Depth).0.value;
      Adopt(parent, prev, node, trees, t);
    } else {
      t :| true;
    }
  }

  /**
   * One turn of the object loop of parseValue: read a key, allocate the
   * member's node (path `parent.Path + "." + key`, the key, index `i`, one
   * level deeper than `parent`), then parse and link it.
   */
  method ParseMember(dec: Decoder, parent: Node, prev: Node?, i: nat, ghost trees: seq<TreeSpec.Tree>)
    returns (r: Result<Node, TreeSpec.ParseError>, ghost t: TreeSpec.Tree)
    requires dec.pos <= |dec.input|
    requires Forest(parent, trees) && i == |trees|
    requires prev == if parent.Kids == [] then null else parent.Kids[|parent.Kids| - 1]
    modifies dec`pos, parent`FirstChild, parent`Kids, parent`Repr, (if prev == null then {} else {prev})`NextSibling
    ensures dec.pos <= |dec.input|
    ensures var (v, next) := TreeSpec.MemberTurn(dec.Source(), old(dec.pos), parent.Path, parent.Depth, i);
      && dec.pos == next
      && (v.Ok? ==> r.Ok? && t == v.value)
      && (v.Err? ==> r == Err(v.error))
    ensures r.Ok? ==> Forest(parent, trees + [t]) && parent.Kids == old(parent.Kids) + [r.value]
    ensures r.Ok? ==> parent.Repr == old(parent.Repr) + r.value.Repr && fresh(r.value.Repr)
    ensures r.Err? ==> Forest(parent, trees) && parent.Kids == old(parent.Kids) && parent.Repr == old(parent.Repr)
    decreases |dec.input| - dec.pos, 2
  {
    var key := ParseKey(dec);
    if key.Err? {
      t :| true;
      return Err(key.error), t;
    }
    var node := new Node(parent, TreeSpec.MemberPath(parent.Path, key.value), key.value, i, parent.Depth + 1);
    r, t := ParseChild(dec, parent, prev, node, trees);
  }

  /** Once LastChild is set, a node whose children hold `trees` holds the whole tree. */
  lemma Completed(n: Node, trees: seq<TreeSpec.Tree>)
    requires Forest(n, trees) && n.Value == Null && n.Length == 0
    requires n.LastChild == (if n.Kids == [] then null else n.Kids[|n.Kids| - 1])
    ensures Builds(n, TreeSpec.Tree(n.Path, n.Key, Null, n.Type, n.Index, n.Depth, trees))
  {
  }

  /**
   * One turn of the array loop of parseValue: allocate element `i` (path
   * `parent.Path[i]`, no key, one level deeper than `parent`), then parse
   * and link it.
   */
  method ParseElement(dec: Decoder, parent: Node, prev: Node?, i: nat, ghost trees: seq<TreeSpec.Tree>)
    returns (r: Result<Node, TreeSpec.ParseError>, ghost t: TreeSpec.Tree)
    requires dec.pos <= |dec.input|
    requires Forest(parent, trees) && i == |trees|
    requires prev == if parent.Kids == [] then null else parent.Kids[|parent.Kids| - 1]
    modifies dec`pos, parent`FirstChild, parent`Kids, parent`Repr, (if prev == null then {} else {prev})`NextSibling
    ensures dec.pos <= |dec.input|
    ensures var (v, next) := TreeSpec.ElementTurn(dec.Source(), old(dec.pos), parent.Path, parent.Depth, i);
      && dec.pos == next
      && (v.Ok? ==> r.Ok? && t == v.value)
      && (v.Err? ==> r == Err(v.error))
    ensures r.Ok? ==> Forest(parent, trees + [t]) && parent.Kids == old(parent.Kids) + [r.value]
    ensures r.Ok? ==> parent.Repr == old(parent.Repr) + r.value.Repr && fresh(r.value.Repr)
    ensures r.Err? ==> Forest(parent, trees) && parent.Kids == old(parent.Kids) && parent.Repr == old(parent.Repr)
    decreases |dec.input| - dec.pos, 2
  {
    var node := new Node(parent, TreeSpec.ElementPath(parent.Path, i), "", i, parent.Depth + 1);
    r, t := ParseChild(dec, parent, prev, node, trees);
  }

  /** A forest stays built while none of the fields it reads change. */
  twostate lemma ForestStays(n: Node, new ts: seq<TreeSpec.Tree>)
    requires old(Forest(n, ts))
    requires unchanged(n`FirstChild, n`Kids, n`Repr)
    requires unchanged(old(n.Repr) - {n})
    ensures Forest(n, ts)
  {
  }

  /** A node without children holds an empty forest. */
  lemma ForestEmpty(n: Node)
    requires n.Kids == [] && n.Repr == {n} && n.FirstChild == null
    ensures Forest(n, [])
  {
  }

  /**
   * The linking step of both loops of parseValue: `curr`, the subtree just
   * built, becomes the first child of `parent` or follows `prev`, the one
   * built before it.
   */
  method Adopt(parent: Node, prev: Node?, curr: Node, ghost trees: seq<TreeSpec.Tree>, ghost t: TreeSpec.Tree)
    requires Forest(parent, trees)
    requires prev == if parent.Kids == [] then null else parent.Kids[|parent.Kids| - 1]
    requires Builds(curr, t) && curr.Parent == parent
    requires curr.PrevSibling == null && curr.NextSibling == null
    requires parent.Repr !! curr.Repr
    modifies parent`FirstChild, parent`Kids, parent`Repr, curr`PrevSibling
    modifies (if prev == null then {} else {prev})`NextSibling
    ensures Forest(parent, trees + [t])
    ensures parent.Kids == old(parent.Kids) + [curr] && parent.Repr == old(parent.Repr) + curr.Repr
  {
    ghost var kids := parent.Kids;
    ForestApart(parent, trees, prev);
    if prev == null {
      parent.FirstChild := curr;
    } else {
      prev.NextSibling := curr;
      curr.PrevSibling := prev;
    }
    parent.Kids := parent.Kids + [curr];
    parent.Repr := parent.Repr + curr.Repr;
    Adopted(parent, prev, curr, trees, t);
  }

  /**
   * The state change of Adopt, stated field by field, keeps the forest built:
   * the new child joins the end of Kids and Repr, it is linked after `prev`
   * (or is the first child), and nothing else in either footprint changes.
   */
  twostate lemma Adopted(parent: Node, new prev: Node?, new curr: Node, new trees: seq<TreeSpec.Tree>, new t: TreeSpec.Tree)
    requires old(allocated(prev)) && old(allocated(curr))
    requires old(Forest(parent, trees)) && old(Builds(curr, t))
    requires old(prev == if parent.Kids == [] then null else parent.Kids[|parent.Kids| - 1])
    requires old(forall i | 0 <= i < |parent.Kids| - 1 :: prev !in parent.Kids[i].Repr)
    requires old(curr.Parent == parent && curr.NextSibling == null && parent.Repr !! curr.Repr)
    requires parent.Kids == old(parent.Kids) + [curr] && parent.Repr == old(parent.Repr) + old(curr.Repr)
    requires parent.FirstChild == if prev == null then curr else old(parent.FirstChild)
    requires curr.PrevSibling == prev && (prev != null ==> prev.NextSibling == curr)
    requires unchanged(old(parent.Repr) + old(curr.Repr) - {parent, prev, curr})
    requires prev != null ==> unchanged(prev`Parent, prev`PrevSibling, prev`Path, prev`Key, prev`Value, prev`Type,
      prev`Length, prev`Index, prev`Depth, prev`FirstChild, prev`LastChild, prev`Kids, prev`Repr)
    requires unchanged(curr`Parent, curr`NextSibling, curr`Path, curr`Key, curr`Value, curr`Type,
      curr`Length, curr`Index, curr`Depth, curr`FirstChild, curr`LastChild, curr`Kids, curr`Repr)
    ensures Forest(parent, trees + [t])
  {
    var kids := old(parent.Kids);
    BuildsStays(curr, t);
    OwnsSnoc(parent, curr);
    LinksSnoc(parent, prev, curr);
    assert Holds(kids, trees);
  }

  /** Adding a child with a footprint of its own keeps the footprints apart. */
  twostate lemma OwnsSnoc(parent: Node, new curr: Node)
    requires old(allocated(curr)) && old(Owns(parent)) && old(curr in curr.Repr) && old(parent.Repr !! curr.Repr)
    requires parent.Kids == old(parent.Kids) + [curr] && parent.Repr == old(parent.Repr) + old(curr.Repr)
    requires forall k: Node | k in parent.Kids :: unchanged(k`Repr)
    ensures Owns(parent)
  {
    var kids := parent.Kids;
    forall i | 0 <= i < |kids| ensures kids[i].Repr == old(kids[i].Repr) {
      assert kids[i] in parent.Kids;
    }
  }

  /** Linking a new last child after `prev` keeps the children linked under `parent`. */
  twostate lemma LinksSnoc(parent: Node, new prev: Node?, new curr: Node)
    requires old(allocated(prev)) && old(allocated(curr)) && old(Links(parent)) && curr !in old(parent.Kids)
    requires old(prev == if parent.Kids == [] then null else parent.Kids[|parent.Kids| - 1])
    requires parent.Kids == old(parent.Kids) + [curr]
    requires parent.FirstChild == if prev == null then curr else old(parent.FirstChild)
    requires curr.Parent == parent && curr.PrevSibling == prev && curr.NextSibling == null
    requires prev != null ==> prev.NextSibling == curr
    requires forall k: Node | k in old(parent.Kids) :: unchanged(k`Parent, k`PrevSibling)
    requires forall k: Node | k in old(parent.Kids) && k != prev :: unchanged(k`NextSibling)
    ensures Links(parent)
  {
    var kids := old(parent.Kids);
    var all := parent.Kids;
    forall i | 0 <= i < |all| ensures all[i].Parent == parent {
      if i < |kids| { assert all[i] == kids[i] && kids[i] in kids; }
    }
    forall i | 0 <= i < |all| - 1 ensures all[i].NextSibling == all[i + 1] && all[i + 1].PrevSibling == all[i] {
      assert all[i] == kids[i] && kids[i] in kids;
      if i + 1 < |kids| {
        assert all[i + 1] == kids[i + 1] && kids[i + 1] in kids;
        assert old(kids[i].NextSibling) == kids[i + 1];
      }
    }
    if kids != [] {
      assert all[0] == kids[0] && kids[0] in kids;
    }
  }

  /** What Forest says about each child, in the form the linking step needs. */
  lemma ForestApart(parent: Node, trees: seq<TreeSpec.Tree>, prev: Node?)
    requires Forest(parent, trees)
    requires prev == if parent.Kids == [] then null else parent.Kids[|parent.Kids| - 1]
    ensures forall i | 0 <= i < |parent.Kids| :: parent.Kids[i] in parent.Kids[i].Repr
    ensures forall i | 0 <= i < |parent.Kids| - 1 :: prev !in parent.Kids[i].Repr
    ensures Owns(parent) && Links(parent) && Holds(parent.Kids, trees)
  {
    var kids := parent.Kids;
    forall i | 0 <= i < |kids| ensures kids[i] in kids[i].Repr {
      assert Builds(kids[i], trees[i]);
    }
    forall i | 0 <= i < |kids| - 1 ensures prev !in kids[i].Repr {
      assert kids[i].Repr !! kids[|kids| - 1].Repr;
    }
  }

  /** A subtree whose root fields and footprint are untouched still holds its tree. */
  twostate lemma BuildsStays(n: Node, new t: TreeSpec.Tree)
    requires old(Builds(n, t))
    requires unchanged(n`Path, n`Key, n`Value, n`Type, n`Length, n`Index, n`Depth, n`FirstChild, n`LastChild, n`Kids, n`Repr)
    requires unchanged(old(n.Repr) - {n})
    ensures Builds(n, t)
  {
  }
}

=== FILE: tokens.dfy ===
/**
 * Tokens of the external JSON tokenizer and the node types derived from them
 * (node.go: NodeType, NodeType.String, tokenToNodeType).
 */
module Tokens {

  /**
   * One token as the tokenizer hands it out. Go's `json.Token` is an interface
   * holding a `json.Delim`, a `string`, a `bool`, a number or `nil`; `Null` is
   * that `nil`, so storing it as a node's value leaves the value nil.
   * `Other` stands for any dynamic type the tokenizer never produces.
   */
  datatype Token =
    | Delim(c: char)
    | Str(s: string)
    | Bool(b: bool)
    | Num(text: string)
    | Null
    | Other

  /** The four delimiters that open and close collections. */
  predicate IsBracket(t: Token) {
    t in {Delim('{'), Delim('}'), Delim('['), Delim(']')}
  }

  /** Go's `NodeType uint32`: any 32-bit value, of which 0..6 are named. */
  newtype NodeType = x: int | 0 <= x < 0x1_0000_0000

  const ErrorNode: NodeType := 0
  const ObjectNode: NodeType := 1
  const ArrayNode: NodeType := 2
  const StringNode: NodeType := 3
  const NumberNode: NodeType := 4
  const BoolNode: NodeType := 5
  const NullNode: NodeType := 6

  /** The type a token gives to the node that holds it. */
  function TokenToNodeType(t: Token): (r: NodeType)
    ensures ErrorNode <= r <= NullNode
    ensures r == ObjectNode <==> t == Delim('{')
    ensures r == ArrayNode <==> t == Delim('[')
    ensures r == StringNode <==> t.Str?
    ensures r == BoolNode <==> t.Bool?
    ensures r == NumberNode <==> t.Num?
    ensures r == NullNode <==> t == Null
    ensures r == ErrorNode <==> t.Other? || (t.Delim? && t.c != '{' && t.c != '[')
  {
    match t
    case Delim(c) => if c == '{' then ObjectNode else if c == '[' then ArrayNode else ErrorNode
    case Str(_) => StringNode
    case Bool(_) => BoolNode
    case Num(_) => NumberNode
    case Null => NullNode
    case Other => ErrorNode
  }

  /** `NodeType.String`: the lower-case name of a type, "error" for anything unnamed. */
  function TypeName(typ: NodeType): (r: string)
    ensures r == "error" <==> (typ == ErrorNode || typ > NullNode)
    ensures r == "object" <==> typ == ObjectNode
    ensures r == "array" <==> typ == ArrayNode
    ensures r == "string" <==> typ == StringNode
    ensures r == "number" <==> typ == NumberNode
    ensures r == "bool" <==> typ == BoolNode
    ensures r == "null" <==> typ == NullNode
  {
    if typ == ObjectNode then "object"
    else if typ == ArrayNode then "array"
    else if typ == StringNode then "string"
    else if typ == NumberNode then "number"
    else if typ == BoolNode then "bool"
    else if typ == NullNode then "null"
    else "error"
  }

  /** Distinct named types print differently, so the printed name identifies the type. */
  lemma TypeNameInjective(a: NodeType, b: NodeType)
    requires a <= NullNode && b <= NullNode
    requires TypeName(a) == TypeName(b)
    ensures a == b
  {
  }
}

=== FILE: tree_facts.dfy ===
/**
 * What every parsed tree satisfies (paths, keys, indices, depths, leaf
 * types), and the round trip: serialising a well-formed tree to tokens and
 * parsing them back gives the same tree, whatever tokens follow.
 */
module TreeFacts {
  import opened Wrappers
  import opened Tokens
  import opened TreeSpec

  /** `k` is child number `i` of a node with the given path, depth and type. */
  predicate IsChild(path: string, depth: int, typ: NodeType, i: nat, k: Tree) {
    && k.index == i
    && k.depth == depth + 1
    && (typ == ObjectNode ==> k.path == MemberPath(path, k.key))
    && (typ == ArrayNode ==> k.key == "" && k.path == ElementPath(path, i))
  }

  /** Every child of `path` in `kids` sits at its own position, and is well-formed. */
  predicate ChildrenOf(path: string, depth: int, typ: NodeType, kids: seq<Tree>)
    decreases kids, 1
  {
    forall i | 0 <= i < |kids| :: IsChild(path, depth, typ, i, kids[i]) && WellFormed(kids[i])
  }

  /**
   * The invariants of a built tree: a collection holds no value and numbers its
   * children 0, 1, 2, ... at one level deeper, with structural paths; anything
   * else is a leaf whose type is that of its token.
   */
  predicate WellFormed(t: Tree)
    decreases t, 0
  {
    if t.typ == ObjectNode || t.typ == ArrayNode then
      t.value == Null && ChildrenOf(t.path, t.depth, t.typ, t.kids)
    else
      t.kids == [] && !IsBracket(t.value) && t.typ == TokenToNodeType(t.value)
  }

  // ---------------------------------------------------------------------
  // Every tree the parser returns is well-formed
  // ---------------------------------------------------------------------

  lemma {:induction false} ValueWellFormed(s: Stream, pos: nat, path: string, key: string, index: int, depth: int)
    requires pos <= |s.input|
    ensures var r := ParseValue(s, pos, path, key, index, depth);
      r.0.Ok? ==> WellFormed(r.0.value)
    decreases |s.input| - pos, 0
  {
    if pos < |s.input| {
      var token := s.input[pos];
      if token == Delim('{') {
        MembersWellFormed(s, pos + 1, path, depth, []);
      } else if token == Delim('[') {
        ElementsWellFormed(s, pos + 1, path, depth, []);
      }
    }
  }

  lemma {:induction false} MembersWellFormed(s: Stream, pos: nat, path: string, depth: int, done: seq<Tree>)
    requires pos <= |s.input|
    requires ChildrenOf(path, depth, ObjectNode, done)
    ensures var r := ParseMembers(s, pos, path, depth, done);
      r.0.Ok? ==> ChildrenOf(path, depth, ObjectNode, r.0.value)
    decreases |s.input| - pos, 2
  {
    var (key, afterKey) := ParseKey(s, pos);
    if key.Ok? {
      var (kid, next) := MemberTurn(s, pos, path, depth, |done|);
      ValueWellFormed(s, afterKey, MemberPath(path, key.value), key.value, |done|, depth + 1);
      if kid.Ok? {
        MembersWellFormed(s, next, path, depth, done + [kid.value]);
      }
    }
  }

  lemma {:induction false} ElementsWellFormed(s: Stream, pos: nat, path: string, depth: int, done: seq<Tree>)
    requires pos <= |s.input|
    requires ChildrenOf(path, depth, ArrayNode, done)
    ensures var r := ParseElements(s, pos, path, depth, done);
      r.0.Ok? ==> ChildrenOf(path, depth, ArrayNode, r.0.value)
    decreases |s.input| - pos, 2
  {
    var kpath := ElementPath(path, |done|);
    var (kid, next) := ParseValue(s, pos, kpath, "", |done|, depth + 1);
    ValueWellFormed(s, pos, kpath, "", |done|, depth + 1);
    if kid.Ok? {
      ElementsWellFormed(s, next, path, depth, done + [kid.value]);
    }
  }

  /** The root of a successful parse is `$` at depth 0, index 0, with no key, and is well-formed. */
  lemma {:induction false} ParsedRoot(s: Stream)
    requires Parse(s).Ok?
    ensures var t := Parse(s).value;
      WellFormed(t) && t.path == "$" && t.key == "" && t.index == 0 && t.depth == 0
  {
    ValueWellFormed(s, 0, "$", "", 0, 0);
  }

  // ---------------------------------------------------------------------
  // Serialisation and the round trip
  // ---------------------------------------------------------------------

  /** The tokens a tokenizer yields for the document a tree describes. */
  function Serialize(t: Tree): (r: seq<Token>)
    ensures |r| > 0
    decreases t, 1
  {
    if t.typ == ObjectNode then [Delim('{')] + SerializeMembers(t.kids) + [Delim('}')]
    else if t.typ == ArrayNode then [Delim('[')] + SerializeElements(t.kids) + [Delim(']')]
    else [t.value]
  }

  function SerializeMembers(kids: seq<Tree>): seq<Token>
    decreases kids, 0
  {
    if kids == [] then [] else [Str(kids[0].key)] + Serialize(kids[0]) + SerializeMembers(kids[1..])
  }

  function SerializeElements(kids: seq<Tree>): seq<Token>
    decreases kids, 0
  {
    if kids == [] then [] else Serialize(kids[0]) + SerializeElements(kids[1..])
  }

  /** `toks` occur in `input` starting at position `pos`, one token after the other. */
  predicate At(input: seq<Token>, pos: nat, toks: seq<Token>)
    decreases toks
  {
    if toks == [] then pos <= |input|
    else pos < |input| && input[pos] == toks[0] && At(input, pos + 1, toks[1..])
  }

  lemma {:induction false} AtBound(input: seq<Token>, pos: nat, toks: seq<Token>)
    requires At(input, pos, toks)
    ensures pos + |toks| <= |input|
    decreases toks
  {
    if toks != [] {
      AtBound(input, pos + 1, toks[1..]);
    }
  }

  /** The whole input from `pos` on occurs at `pos`. */
  lemma {:induction false} AtSelf(input: seq<Token>, pos: nat)
    requires pos <= |input|
    ensures At(input, pos, input[pos..])
    decreases |input| - pos
  {
    if pos < |input| {
      AtSelf(input, pos + 1);
      assert input[pos..][1..] == input[pos + 1..];
    }
  }

  lemma {:induction false} AtSplit(input: seq<Token>, pos: nat, a: seq<Token>, b: seq<Token>)
    requires At(input, pos, a + b)
    ensures At(input, pos, a) && At(input, pos + |a|, b)
    decreases a
  {
    if a == [] {
      assert a + b == b;
      AtBound(input, pos, b);
    } else {
      assert (a + b)[0] == a[0] && (a + b)[1..] == a[1..] + b;
      AtSplit(input, pos + 1, a[1..], b);
    }
  }

  lemma {:induction false} AtJoin(input: seq<Token>, pos: nat, a: seq<Token>, b: seq<Token>)
    requires At(input, pos, a) && At(input, pos + |a|, b)
    ensures At(input, pos, a + b)
    decreases a
  {
    if a == [] {
      assert a + b == b;
    } else {
      AtJoin(input, pos + 1, a[1..], b);
      assert (a + b)[0] == a[0] && (a + b)[1..] == a[1..] + b;
    }
  }

  /** The first of three pieces, then the other two. */
  lemma {:induction false} AtSplit3(input: seq<Token>, pos: nat, a: seq<Token>, b: seq<Token>, c: seq<Token>)
    requires At(input, pos, a + b + c)
    ensures At(input, pos, a) && At(input, pos + |a|, b + c)
  {
    AtSplit(input, pos, a + b, c);
    AtSplit(input, pos, a, b);
    AtJoin(input, pos + |a|, b, c);
  }

  /** A single token, then two pieces. */
  lemma {:induction false} AtToken(input: seq<Token>, pos: nat, key: Token, a: seq<Token>, b: seq<Token>)
    requires At(input, pos, [key] + a + b)
    ensures pos < |input| && input[pos] == key
    ensures At(input, pos + 1, a) && At(input, pos + 1 + |a|, b)
  {
    AtSplit3(input, pos, [key], a, b);
    AtSplit(input, pos + 1, a, b);
  }

  /** One turn of the object loop that builds member `k` from key token `Str(k.key)`. */
  lemma {:induction false} MemberStep(s: Stream, pos: nat, path: string, depth: int, done: seq<Tree>, k: Tree)
    requires pos < |s.input| && s.input[pos] == Str(k.key)
    requires ParseValue(s, pos + 1, MemberPath(path, k.key), k.key, |done|, depth + 1).0 == Ok(k)
    ensures var next := ParseValue(s, pos + 1, MemberPath(path, k.key), k.key, |done|, depth + 1).1;
      ParseMembers(s, pos, path, depth, done) == ParseMembers(s, next, path, depth, done + [k])
  {
  }

  /** One turn of the array loop that builds element `k`. */
  lemma {:induction false} ElementStep(s: Stream, pos: nat, path: string, depth: int, done: seq<Tree>, k: Tree)
    requires pos <= |s.input|
    requires ParseValue(s, pos, ElementPath(path, |done|), "", |done|, depth + 1).0 == Ok(k)
    ensures var next := ParseValue(s, pos, ElementPath(path, |done|), "", |done|, depth + 1).1;
      ParseElements(s, pos, path, depth, done) == ParseElements(s, next, path, depth, done + [k])
  {
  }

  /**
   * Parsing the tokens of a well-formed tree rebuilds that tree and stops right
   * after its last token: nothing after it is read.
   */
  lemma {:induction false} ValueRoundTrip(s: Stream, pos: nat, t: Tree)
    requires WellFormed(t)
    requires At(s.input, pos, Serialize(t))
    ensures ParseValue(s, pos, t.path, t.key, t.index, t.depth) == (Ok(t), pos + |Serialize(t)|)
    decreases Size(t), 0
  {
    if t.typ == ObjectNode {
      AtSplit3(s.input, pos, [Delim('{')], SerializeMembers(t.kids), [Delim('}')]);
      OpenAt(s.input, pos, Delim('{'));
      ChildrenFromStart(t.path, t.depth, ObjectNode, t.kids);
      MembersRoundTrip(s, pos + 1, t.path, t.depth, [], t.kids);
    } else if t.typ == ArrayNode {
      AtSplit3(s.input, pos, [Delim('[')], SerializeElements(t.kids), [Delim(']')]);
      OpenAt(s.input, pos, Delim('['));
      ChildrenFromStart(t.path, t.depth, ArrayNode, t.kids);
      ElementsRoundTrip(s, pos + 1, t.path, t.depth, [], t.kids);
    } else {
      OpenAt(s.input, pos, t.value);
    }
  }

  /** Members `rest` of the object at `path`, numbered on from the `done` ones. */
  predicate MoreChildren(path: string, depth: int, typ: NodeType, done: seq<Tree>, rest: seq<Tree>) {
    forall j | 0 <= j < |rest| :: IsChild(path, depth, typ, |done| + j, rest[j]) && WellFormed(rest[j])
  }

  /** All children of a node are the children numbered on from none. */
  lemma {:induction false} ChildrenFromStart(path: string, depth: int, typ: NodeType, kids: seq<Tree>)
    requires ChildrenOf(path, depth, typ, kids)
    ensures MoreChildren(path, depth, typ, [], kids) && [] + kids == kids
  {
  }

  lemma {:induction false} MoreChildrenTail(path: string, depth: int, typ: NodeType, done: seq<Tree>, rest: seq<Tree>)
    requires rest != [] && MoreChildren(path, depth, typ, done, rest)
    ensures IsChild(path, depth, typ, |done|, rest[0]) && WellFormed(rest[0])
    ensures MoreChildren(path, depth, typ, done + [rest[0]], rest[1..])
  {
    assert IsChild(path, depth, typ, |done| + 0, rest[0]) && WellFormed(rest[0]);
    forall j | 0 <= j < |rest[1..]|
      ensures IsChild(path, depth, typ, |done + [rest[0]]| + j, rest[1..][j]) && WellFormed(rest[1..][j])
    {
      assert rest[1..][j] == rest[j + 1];
    }
  }

  /** The tokens of the remaining members split into key, first value and the rest. */
  lemma {:induction false} MembersAt(input: seq<Token>, pos: nat, rest: seq<Tree>, end: Token)
    requires rest != [] && At(input, pos, SerializeMembers(rest) + [end])
    ensures input[pos] == Str(rest[0].key)
    ensures At(input, pos + 1, Serialize(rest[0]))
    ensures At(input, pos + 1 + |Serialize(rest[0])|, SerializeMembers(rest[1..]) + [end])
    ensures |SerializeMembers(rest)| == 1 + |Serialize(rest[0])| + |SerializeMembers(rest[1..])|
  {
    var first, more, close := Serialize(rest[0]), SerializeMembers(rest[1..]), [end];
    assert SerializeMembers(rest) == [Str(rest[0].key)] + first + more;
    assert SerializeMembers(rest) + close == [Str(rest[0].key)] + first + (more + close);
    AtToken(input, pos, Str(rest[0].key), first, more + close);
  }

  lemma {:induction false} ElementsAt(input: seq<Token>, pos: nat, rest: seq<Tree>)
    requires rest != [] && At(input, pos, SerializeElements(rest) + [Delim(']')])
    ensures At(input, pos, Serialize(rest[0]))
    ensures At(input, pos + |Serialize(rest[0])|, SerializeElements(rest[1..]) + [Delim(']')])
    ensures |SerializeElements(rest)| == |Serialize(rest[0])| + |SerializeElements(rest[1..])|
  {
    var first, more, close := Serialize(rest[0]), SerializeElements(rest[1..]), [Delim(']')];
    assert SerializeElements(rest) == first + more;
    assert SerializeElements(rest) + close == first + (more + close);
    AtSplit(input, pos, first, more + close);
  }

  lemma {:induction false} AppendFirst(done: seq<Tree>, rest: seq<Tree>)
    requires rest != []
    ensures done + [rest[0]] + rest[1..] == done + rest
  {
    assert [rest[0]] + rest[1..] == rest;
  }

  /** The token at the start. */
  lemma {:induction false} OpenAt(input: seq<Token>, pos: nat, open: Token)
    requires At(input, pos, [open])
    ensures pos < |input| && input[pos] == open
  {
    assert [open][0] == open;
  }

  /** Only the closing delimiter is left. */
  lemma {:induction false} CloseAt(input: seq<Token>, pos: nat, toks: seq<Token>, close: Token)
    requires toks == [] && At(input, pos, toks + [close])
    ensures pos < |input| && input[pos] == close
  {
    assert toks + [close] == [close];
  }

  /** A `}` in key position ends the object with the members built so far. */
  lemma {:induction false} MembersEnd(s: Stream, pos: nat, path: string, depth: int, done: seq<Tree>, rest: seq<Tree>)
    requires rest == [] && pos < |s.input| && s.input[pos] == Delim('}')
    ensures ParseMembers(s, pos, path, depth, done) == (Ok(done + rest), pos + |SerializeMembers(rest)| + 1)
  {
    assert done + rest == done;
  }

  /** A `]` in value position ends the array with the elements built so far. */
  lemma {:induction false} ElementsEnd(s: Stream, pos: nat, path: string, depth: int, done: seq<Tree>, rest: seq<Tree>)
    requires rest == [] && pos < |s.input| && s.input[pos] == Delim(']')
    ensures ParseElements(s, pos, path, depth, done) == (Ok(done + rest), pos + |SerializeElements(rest)| + 1)
  {
    assert ElementTurn(s, pos, path, depth, |done|) == (Err(Eob), pos + 1);
    assert done + rest == done;
  }

  /**
   * The first remaining member parses back, so the loop moves on past it with
   * it appended to the members built.
   */
  lemma {:induction false} MembersNext(s: Stream, pos: nat, path: string, depth: int, done: seq<Tree>, rest: seq<Tree>, end: Token)
    requires rest != [] && MoreChildren(path, depth, ObjectNode, done, rest)
    requires At(s.input, pos, SerializeMembers(rest) + [end])
    ensures var next := pos + 1 + |Serialize(rest[0])|;
      && next <= |s.input|
      && ParseMembers(s, pos, path, depth, done) == ParseMembers(s, next, path, depth, done + [rest[0]])
      && MoreChildren(path, depth, ObjectNode, done + [rest[0]], rest[1..])
      && At(s.input, next, SerializeMembers(rest[1..]) + [end])
      && next + |SerializeMembers(rest[1..])| == pos + |SerializeMembers(rest)|
    decreases ForestSize(rest), 1
  {
    var k := rest[0];
    MembersAt(s.input, pos, rest, end);
    MoreChildrenTail(path, depth, ObjectNode, done, rest);
    assert k.path == MemberPath(path, k.key) && k.index == |done| && k.depth == depth + 1;
    ValueRoundTrip(s, pos + 1, k);
    MemberStep(s, pos, path, depth, done, k);
  }

  lemma {:induction false} ElementsNext(s: Stream, pos: nat, path: string, depth: int, done: seq<Tree>, rest: seq<Tree>)
    requires rest != [] && MoreChildren(path, depth, ArrayNode, done, rest)
    requires At(s.input, pos, SerializeElements(rest) + [Delim(']')])
    ensures var next := pos + |Serialize(rest[0])|;
      && next <= |s.input|
      && ParseElements(s, pos, path, depth, done) == ParseElements(s, next, path, depth, done + [rest[0]])
      && MoreChildren(path, depth, ArrayNode, done + [rest[0]], rest[1..])
      && At(s.input, next, SerializeElements(rest[1..]) + [Delim(']')])
      && next + |SerializeElements(rest[1..])| == pos + |SerializeElements(rest)|
    decreases ForestSize(rest), 1
  {
    var k := rest[0];
    ElementsAt(s.input, pos, rest);
    MoreChildrenTail(path, depth, ArrayNode, done, rest);
    assert k.path == ElementPath(path, |done|) && k.key == "" && k.index == |done| && k.depth == depth + 1;
    ValueRoundTrip(s, pos, k);
    ElementStep(s, pos, path, depth, done, k);
  }

  lemma {:induction false} MembersRoundTrip(s: Stream, pos: nat, path: string, depth: int, done: seq<Tree>, rest: seq<Tree>)
    requires MoreChildren(path, depth, ObjectNode, done, rest)
    requires At(s.input, pos, SerializeMembers(rest) + [Delim('}')])
    ensures ParseMembers(s, pos, path, depth, done) == (Ok(done + rest), pos + |SerializeMembers(rest)| + 1)
    decreases ForestSize(rest), 2
  {
    if rest == [] {
      CloseAt(s.input, pos, SerializeMembers(rest), Delim('}'));
      MembersEnd(s, pos, path, depth, done, rest);
    } else {
      MembersNext(s, pos, path, depth, done, rest, Delim('}'));
      MembersRoundTrip(s, pos + 1 + |Serialize(rest[0])|, path, depth, done + [rest[0]], rest[1..]);
      AppendFirst(done, rest);
    }
  }

  lemma {:induction false} ElementsRoundTrip(s: Stream, pos: nat, path: string, depth: int, done: seq<Tree>, rest: seq<Tree>)
    requires MoreChildren(path, depth, ArrayNode, done, rest)
    requires At(s.input, pos, SerializeElements(rest) + [Delim(']')])
    ensures ParseElements(s, pos, path, depth, done) == (Ok(done + rest), pos + |SerializeElements(rest)| + 1)
    decreases ForestSize(rest), 2
  {
    if rest == [] {
      CloseAt(s.input, pos, SerializeElements(rest), Delim(']'));
      ElementsEnd(s, pos, path, depth, done, rest);
    } else {
      ElementsNext(s, pos, path, depth, done, rest);
      ElementsRoundTrip(s, pos + |Serialize(rest[0])|, path, depth, done + [rest[0]], rest[1..]);
      AppendFirst(done, rest);
    }
  }

  /** The document of a well-formed root parses back to that root, trailing tokens ignored. */
  lemma {:induction false} ParseRoundTrip(t: Tree, trailing: seq<Token>, failure: string)
    requires WellFormed(t) && t.path == "$" && t.key == "" && t.index == 0 && t.depth == 0
    ensures Parse(Stream(Serialize(t) + trailing, failure)) == Ok(t)
  {
    var s := Stream(Serialize(t) + trailing, failure);
    AtSelf(s.input, 0);
    assert s.input[0..] == Serialize(t) + trailing;
    AtSplit(s.input, 0, Serialize(t), trailing);
    ValueRoundTrip(s, 0, t);
  }

  // ---------------------------------------------------------------------
  // Errors: they abort the whole parse
  // ---------------------------------------------------------------------

  /** A closing bracket where the document should start: the end-of-bracket signal escapes Parse. */
  lemma {:induction false} EobEscapes(s: Stream)
    requires s.input != [] && (s.input[0] == Delim('}') || s.input[0] == Delim(']'))
    ensures Parse(s) == Err(Eob)
  {
  }

  /** The input from `pos` on is a proper prefix of `doc`: the tokens stop before `doc` ends. */
  predicate Truncated(input: seq<Token>, pos: nat, doc: seq<Token>) {
    pos <= |input| && |input| - pos < |doc| && input[pos..] == doc[..|input| - pos]
  }

  /** `toks` fit in `input` at `pos` as a slice. */
  lemma {:induction false} AtSlice(input: seq<Token>, pos: nat, toks: seq<Token>)
    requires pos + |toks| <= |input| && input[pos..pos + |toks|] == toks
    ensures At(input, pos, toks)
  {
    AtSelf(input, pos);
    assert input[pos..] == toks + input[pos + |toks|..];
    AtSplit(input, pos, toks, input[pos + |toks|..]);
  }

  /** A truncated document that has not run out yet starts with its first token. */
  lemma {:induction false} TruncatedCons(input: seq<Token>, pos: nat, a: Token, doc: seq<Token>)
    requires Truncated(input, pos, [a] + doc) && pos < |input|
    ensures input[pos] == a && Truncated(input, pos + 1, doc)
  {
    var n := |input| - pos;
    assert input[pos] == input[pos..][0] == ([a] + doc)[0];
    assert input[pos + 1..] == input[pos..][1..];
    assert ([a] + doc)[..n][1..] == doc[..n - 1];
  }

  /** A truncated `a + b` is either a truncated `a`, or all of `a` and then a truncated `b`. */
  lemma {:induction false} TruncatedSplit(input: seq<Token>, pos: nat, a: seq<Token>, b: seq<Token>)
    requires Truncated(input, pos, a + b)
    ensures |input| - pos < |a| ==> Truncated(input, pos, a)
    ensures |input| - pos >= |a| ==> At(input, pos, a) && Truncated(input, pos + |a|, b)
  {
    var n := |input| - pos;
    if n < |a| {
      assert (a + b)[..n] == a[..n];
    } else {
      assert input[pos..pos + |a|] == input[pos..][..|a|] == (a + b)[..n][..|a|] == a;
      AtSlice(input, pos, a);
      assert input[pos + |a|..] == input[pos..][|a|..];
      assert (a + b)[..n][|a|..] == b[..n - |a|];
    }
  }

  /**
   * A document cut short anywhere before its last token: parsing runs into the
   * end of the input and fails with the tokenizer's error, however deep it was.
   */
  lemma {:induction false} ValueTruncated(s: Stream, pos: nat, t: Tree)
    requires WellFormed(t) && Truncated(s.input, pos, Serialize(t))
    ensures ParseValue(s, pos, t.path, t.key, t.index, t.depth) == (Err(Tokenizer(s.failure)), |s.input|)
    decreases Size(t), 0
  {
    if pos < |s.input| {
      if t.typ == ObjectNode {
        assert Serialize(t) == [Delim('{')] + (SerializeMembers(t.kids) + [Delim('}')]);
        TruncatedCons(s.input, pos, Delim('{'), SerializeMembers(t.kids) + [Delim('}')]);
        ChildrenFromStart(t.path, t.depth, ObjectNode, t.kids);
        MembersTruncated(s, pos + 1, t.path, t.depth, [], t.kids);
      } else if t.typ == ArrayNode {
        assert Serialize(t) == [Delim('[')] + (SerializeElements(t.kids) + [Delim(']')]);
        TruncatedCons(s.input, pos, Delim('['), SerializeElements(t.kids) + [Delim(']')]);
        ChildrenFromStart(t.path, t.depth, ArrayNode, t.kids);
        ElementsTruncated(s, pos + 1, t.path, t.depth, [], t.kids);
      }
    }
  }

  lemma {:induction false} MembersTruncated(s: Stream, pos: nat, path: string, depth: int, done: seq<Tree>, rest: seq<Tree>)
    requires MoreChildren(path, depth, ObjectNode, done, rest)
    requires Truncated(s.input, pos, SerializeMembers(rest) + [Delim('}')])
    ensures ParseMembers(s, pos, path, depth, done) == (Err(Tokenizer(s.failure)), |s.input|)
    decreases ForestSize(rest), 2
  {
    if pos == |s.input| {
      assert MemberTurn(s, pos, path, depth, |done|) == (Err(Tokenizer(s.failure)), pos);
    } else {
      var k := rest[0];
      var first, more, close := Serialize(k), SerializeMembers(rest[1..]), [Delim('}')];
      assert SerializeMembers(rest) + close == [Str(k.key)] + (first + (more + close));
      TruncatedCons(s.input, pos, Str(k.key), first + (more + close));
      TruncatedSplit(s.input, pos + 1, first, more + close);
      MoreChildrenTail(path, depth, ObjectNode, done, rest);
      assert k.path == MemberPath(path, k.key) && k.index == |done| && k.depth == depth + 1;
      if |s.input| - (pos + 1) < |first| {
        ValueTruncated(s, pos + 1, k);
        assert MemberTurn(s, pos, path, depth, |done|) == (Err(Tokenizer(s.failure)), |s.input|);
      } else {
        ValueRoundTrip(s, pos + 1, k);
        MemberStep(s, pos, path, depth, done, k);
        MembersTruncated(s, pos + 1 + |first|, path, depth, done + [k], rest[1..]);
      }
    }
  }

  lemma {:induction false} ElementsTruncated(s: Stream, pos: nat, path: string, depth: int, done: seq<Tree>, rest: seq<Tree>)
    requires MoreChildren(path, depth, ArrayNode, done, rest)
    requires Truncated(s.input, pos, SerializeElements(rest) + [Delim(']')])
    ensures ParseElements(s, pos, path, depth, done) == (Err(Tokenizer(s.failure)), |s.input|)
    decreases ForestSize(rest), 2
  {
    if pos == |s.input| {
      assert ElementTurn(s, pos, path, depth, |done|) == (Err(Tokenizer(s.failure)), pos);
    } else {
      var k := rest[0];
      var first, more, close := Serialize(k), SerializeElements(rest[1..]), [Delim(']')];
      assert SerializeElements(rest) + close == first + (more + close);
      TruncatedSplit(s.input, pos, first, more + close);
      MoreChildrenTail(path, depth, ArrayNode, done, rest);
      assert k.path == ElementPath(path, |done|) && k.key == "" && k.index == |done| && k.depth == depth + 1;
      if |s.input| - pos < |first| {
        ValueTruncated(s, pos, k);
        assert ElementTurn(s, pos, path, depth, |done|) == (Err(Tokenizer(s.failure)), |s.input|);
      } else {
        ValueRoundTrip(s, pos, k);
        ElementStep(s, pos, path, depth, done, k);
        ElementsTruncated(s, pos + |first|, path, depth, done + [k], rest[1..]);
      }
    }
  }

  /** Every proper prefix of a document, the empty one included, fails to parse with the tokenizer's error. */
  lemma {:induction false} ParseTruncated(t: Tree, n: nat, failure: string)
    requires WellFormed(t) && t.path == "$" && t.key == "" && t.index == 0 && t.depth == 0
    requires n < |Serialize(t)|
    ensures Parse(Stream(Serialize(t)[..n], failure)) == Err(Tokenizer(failure))
  {
    var s := Stream(Serialize(t)[..n], failure);
    assert s.input[0..] == Serialize(t)[..|s.input| - 0];
    ValueTruncated(s, 0, t);
  }

  /**
   * After the members built so far, a token in key position that is neither a
   * string nor `}` ends the object loop with the invalid-key error naming it.
   */
  lemma {:induction false} MembersBadKey(s: Stream, pos: nat, path: string, depth: int, done: seq<Tree>, rest: seq<Tree>, bad: Token)
    requires MoreChildren(path, depth, ObjectNode, done, rest)
    requires At(s.input, pos, SerializeMembers(rest) + [bad]) && bad != Delim('}') && !bad.Str?
    ensures ParseMembers(s, pos, path, depth, done) == (Err(InvalidKey(bad)), pos + |SerializeMembers(rest)| + 1)
    decreases ForestSize(rest), 2
  {
    if rest == [] {
      CloseAt(s.input, pos, SerializeMembers(rest), bad);
      assert MemberTurn(s, pos, path, depth, |done|) == (Err(InvalidKey(bad)), pos + 1);
    } else {
      MembersNext(s, pos, path, depth, done, rest, bad);
      MembersBadKey(s, pos + 1 + |Serialize(rest[0])|, path, depth, done + [rest[0]], rest[1..], bad);
    }
  }

  /**
   * An object document whose members are followed by a non-string key instead
   * of `}`: the whole parse fails with the invalid-key error, whatever follows.
   */
  lemma {:induction false} ParseBadKey(t: Tree, bad: Token, trailing: seq<Token>, failure: string)
    requires WellFormed(t) && t.typ == ObjectNode && t.path == "$" && t.depth == 0
    requires bad != Delim('}') && !bad.Str?
    ensures Parse(Stream([Delim('{')] + SerializeMembers(t.kids) + [bad] + trailing, failure)) == Err(InvalidKey(bad))
  {
    var body := SerializeMembers(t.kids) + [bad];
    var s := Stream([Delim('{')] + SerializeMembers(t.kids) + [bad] + trailing, failure);
    assert s.input == [Delim('{')] + body + trailing;
    AtSelf(s.input, 0);
    assert s.input[0..] == s.input;
    AtSplit(s.input, 0, [Delim('{')] + body, trailing);
    AtSplit(s.input, 0, [Delim('{')], body);
    OpenAt(s.input, 0, Delim('{'));
    ChildrenFromStart(t.path, t.depth, ObjectNode, t.kids);
    MembersBadKey(s, 1, t.path, t.depth, [], t.kids, bad);
  }
}

=== FILE: tree_spec.dfy ===
/**
 * The value a parse produces, as a pure tree, and the parse itself as
 * functions over a token stream (parse.go: parse, parseKey, parseValue).
 * The heap-based builder in module Parser is proved to produce exactly
 * these trees.
 */
module TreeSpec {
  import opened Wrappers
  import opened Tokens

  /**
   * One node with its whole subtree, field for field as the builder fills
   * a Node: `value` is `Null` (Go's nil) unless a primitive token was stored.
   * `Length` is left out because the builder never writes it.
   */
  datatype Tree = Tree(
    path: string,
    key: string,
    value: Token,
    typ: NodeType,
    index: int,
    depth: int,
    kids: seq<Tree>)

  /** The number of nodes in a tree, and in a sequence of trees. */
  function Size(t: Tree): (n: nat)
    ensures n >= 1
    decreases t, 1
  {
    1 + ForestSize(t.kids)
  }

  function ForestSize(ts: seq<Tree>): nat
    decreases ts, 0
  {
    if ts == [] then 0 else Size(ts[0]) + ForestSize(ts[1..])
  }

  /** The token source: the tokens it yields, then the error it reports once they run out. */
  datatype Stream = Stream(input: seq<Token>, failure: string)

  /**
   * Why a parse stopped: the private end-of-bracket signal `eob`, a key that
   * is not a string, or an error of the tokenizer (malformed or truncated input).
   */
  datatype ParseError = Eob | InvalidKey(token: Token) | Tokenizer(reason: string)

  // ---------------------------------------------------------------------
  // Paths
  // ---------------------------------------------------------------------

  function Digit(d: nat): char
    requires d < 10
  {
    ('0' as int + d) as char
  }

  predicate IsDigits(s: string) {
    forall i | 0 <= i < |s| :: '0' <= s[i] <= '9'
  }

  /** `%d` of a non-negative int: its decimal digits, most significant first. */
  function Decimal(n: nat): (s: string)
    ensures |s| > 0
  {
    if n < 10 then [Digit(n)] else Decimal(n / 10) + [Digit(n % 10)]
  }

  /** The digits printed are decimal digits, without a leading zero. */
  lemma {:induction false} DecimalDigits(n: nat)
    ensures IsDigits(Decimal(n))
    ensures n >= 10 ==> Decimal(n)[0] != '0'
  {
    if n >= 10 {
      var s := Decimal(n / 10);
      DecimalDigits(n / 10);
      assert Decimal(n) == s + [Digit(n % 10)];
      assert Decimal(n)[0] == s[0];
      forall i | 0 <= i < |Decimal(n)| ensures '0' <= Decimal(n)[i] <= '9' {
        if i < |s| { assert Decimal(n)[i] == s[i]; }
      }
    }
  }

  /** The number a string of decimal digits denotes. */
  function DecimalValue(s: string): int {
    if s == [] then 0 else DecimalValue(s[..|s| - 1]) * 10 + (s[|s| - 1] as int - '0' as int)
  }

  /** Reading the digits back gives the number printed. */
  lemma {:induction false} DecimalRoundTrip(n: nat)
    ensures DecimalValue(Decimal(n)) == n
  {
    if n >= 10 {
      var s := Decimal(n);
      assert s[..|s| - 1] == Decimal(n / 10);
      DecimalRoundTrip(n / 10);
    }
  }

  /** The path of member `key` of the object at `path` (keys are not escaped). */
  function MemberPath(path: string, key: string): string {
    path + "." + key
  }

  /** The path of element `i` of the array at `path`. */
  function ElementPath(path: string, i: nat): string {
    path + "[" + Decimal(i) + "]"
  }

  /** Two elements of the same array never share a path. */
  lemma {:induction false} ElementPathInjective(path: string, i: nat, j: nat)
    requires ElementPath(path, i) == ElementPath(path, j)
    ensures i == j
  {
    var a, b := Decimal(i), Decimal(j);
    assert path + "[" + a + "]" == path + "[" + b + "]";
    assert ("[" + a + "]")[1..|a| + 1] == a;
    assert a == b by {
      assert |a| == |b|;
      assert forall k | 0 <= k < |a| :: a[k] == ElementPath(path, i)[|path| + 1 + k];
      assert forall k | 0 <= k < |b| :: b[k] == ElementPath(path, j)[|path| + 1 + k];
    }
    DecimalRoundTrip(i);
    DecimalRoundTrip(j);
  }

  // ---------------------------------------------------------------------
  // Parsing, one token of lookahead per call
  // ---------------------------------------------------------------------

  /** parseKey: reads one token in key position. A `}` there ends the object. */
  function ParseKey(s: Stream, pos: nat): (r: (Result<string, ParseError>, nat))
    requires pos <= |s.input|
    ensures pos == |s.input| ==> r == (Err(Tokenizer(s.failure)), pos)
    ensures pos < |s.input| ==> r.1 == pos + 1
    ensures r.0 == Err(Eob) <==> pos < |s.input| && s.input[pos] == Delim('}')
    ensures r.0.Ok? <==> pos < |s.input| && s.input[pos].Str?
    ensures r.0.Ok? ==> s.input[pos] == Str(r.0.value)
    ensures r.0.Err? && r.0.error.InvalidKey? ==> r.0.error.token == s.input[pos]
    ensures pos < |s.input| && s.input[pos] != Delim('}') && !s.input[pos].Str?
      ==> r.0 == Err(InvalidKey(s.input[pos]))
  {
    if pos == |s.input| then (Err(Tokenizer(s.failure)), pos)
    else
      var token := s.input[pos];
      if token == Delim('}') then (Err(Eob), pos + 1)
      else if token.Str? then (Ok(token.s), pos + 1)
      else (Err(InvalidKey(token)), pos + 1)
  }

  /**
   * parseValue for a node with the given path, key, index and depth, reading
   * from position `pos`. Returns the parsed subtree or the error, and the
   * position after the last token read.
   */
  function ParseValue(s: Stream, pos: nat, path: string, key: string, index: int, depth: int)
    : (r: (Result<Tree, ParseError>, nat))
    requires pos <= |s.input|
    ensures pos <= r.1 <= |s.input|
    ensures pos == |s.input| ==> r == (Err(Tokenizer(s.failure)), pos)
    ensures pos < |s.input| ==> r.1 > pos
    ensures r.0.Ok? ==> var t := r.0.value;
      t.path == path && t.key == key && t.index == index && t.depth == depth
    decreases |s.input| - pos, 0
  {
    if pos == |s.input| then (Err(Tokenizer(s.failure)), pos)
    else
      var token := s.input[pos];
      if token == Delim('{') then
        var (kids, next) := ParseMembers(s, pos + 1, path, depth, []);
        (if kids.Ok? then Ok(Tree(path, key, Null, ObjectNode, index, depth, kids.value))
         else Err(kids.error), next)
      else if token == Delim('}') then (Err(Eob), pos + 1)
      else if token == Delim('[') then
        var (kids, next) := ParseElements(s, pos + 1, path, depth, []);
        (if kids.Ok? then Ok(Tree(path, key, Null, ArrayNode, index, depth, kids.value))
         else Err(kids.error), next)
      else if token == Delim(']') then (Err(Eob), pos + 1)
      else (Ok(Tree(path, key, token, TokenToNodeType(token), index, depth, [])), pos + 1)
  }

  /**
   * One turn of the object loop: a key, then the value of member number
   * `index`, with path `path.key` and depth `depth + 1`. An `Err(Eob)` from
   * either step ends the object.
   */
  function MemberTurn(s: Stream, pos: nat, path: string, depth: int, index: nat)
    : (r: (Result<Tree, ParseError>, nat))
    requires pos <= |s.input|
    ensures pos <= r.1 <= |s.input|
    ensures r.0.Ok? ==> r.1 > pos
    decreases |s.input| - pos, 1
  {
    var (key, afterKey) := ParseKey(s, pos);
    if key.Err? then (Err(key.error), afterKey)
    else ParseValue(s, afterKey, MemberPath(path, key.value), key.value, index, depth + 1)
  }

  /** The object loop: `done` are the members built so far; member i is built by turn i. */
  function ParseMembers(s: Stream, pos: nat, path: string, depth: int, done: seq<Tree>)
    : (r: (Result<seq<Tree>, ParseError>, nat))
    requires pos <= |s.input|
    ensures pos <= r.1 <= |s.input|
    ensures r.0.Err? ==> r.0.error != Eob
    decreases |s.input| - pos, 2
  {
    var (kid, next) := MemberTurn(s, pos, path, depth, |done|);
    if kid == Err(Eob) then (Ok(done), next)
    else if kid.Err? then (Err(kid.error), next)
    else ParseMembers(s, next, path, depth, done + [kid.value])
  }

  /** One turn of the array loop: the value of element `index`, with path `path[index]`, no key and depth `depth + 1`. */
  function ElementTurn(s: Stream, pos: nat, path: string, depth: int, index: nat)
    : (r: (Result<Tree, ParseError>, nat))
    requires pos <= |s.input|
    ensures pos <= r.1 <= |s.input|
    ensures r.0.Ok? ==> r.1 > pos
    decreases |s.input| - pos, 1
  {
    ParseValue(s, pos, ElementPath(path, index), "", index, depth + 1)
  }

  /** The array loop: `done` are the elements built so far; element i is built by turn i. */
  function ParseElements(s: Stream, pos: nat, path: string, depth: int, done: seq<Tree>)
    : (r: (Result<seq<Tree>, ParseError>, nat))
    requires pos <= |s.input|
    ensures pos <= r.1 <= |s.input|
    ensures r.0.Err? ==> r.0.error != Eob
    decreases |s.input| - pos, 2
  {
    var (kid, next) := ElementTurn(s, pos, path, depth, |done|);
    if kid == Err(Eob) then (Ok(done), next)
    else if kid.Err? then (Err(kid.error), next)
    else ParseElements(s, next, path, depth, done + [kid.value])
  }

  /** parse: one value read into the root node `$` (index 0, depth 0, no key). */
  function Parse(s: Stream): (r: Result<Tree, ParseError>)
    ensures s.input == [] ==> r == Err(Tokenizer(s.failure))
    ensures r.Ok? ==> var t := r.value;
      t.path == "$" && t.key == "" && t.index == 0 && t.depth == 0
  {
    ParseValue(s, 0, "$", "", 0, 0).0
  }
}

=== FILE: walk_facts.dfy ===
/**
 * What a walk visits (node.go: Walk, walk, SkipNode) for any visitor, and for
 * the SkipArrayNotZero filter in particular.
 */
module WalkFacts {
  import opened Wrappers
  import opened Tokens
  import opened TreeSpec
  import opened TreeFacts
  import opened WalkSpec

  // ---------------------------------------------------------------------
  // Any visitor
  // ---------------------------------------------------------------------

  /**
   * A visitor that always returns nil sees the start node, its subtree in
   * document order, then each later sibling with its subtree, and the walk
   * returns nil.
   */
  lemma {:induction false} WalkAll(ts: seq<Tree>, pt: Option<NodeType>, fn: Visitor)
    requires forall v :: fn(v) == Nil
    ensures Walk(ts, pt, fn) == Outcome(PreOrder(ts, pt), Nil)
    decreases ts
  {
    if ts != [] {
      WalkAll(ts[0].kids, Some(ts[0].typ), fn);
      WalkAll(ts[1..], pt, fn);
      assert fn(View(ts[0], pt)) == Nil;
    }
  }

  /** From the root, such a walk visits every node exactly once, the root first. */
  lemma {:induction false} WalkAllFromRoot(t: Tree, fn: Visitor)
    requires forall v :: fn(v) == Nil
    ensures var r := Walk([t], None, fn);
      r.err == Nil && |r.visited| == Size(t) && r.visited[0] == View(t, None)
  {
    WalkAll([t], None, fn);
    assert [t][1..] == [];
    assert ForestSize([t]) == Size(t) + ForestSize([]);
  }

  /**
   * The nodes a walk visits are an initial part of the pruned document-order
   * listing. A walk that fails stops at the first node the visitor fails on
   * and returns that error; otherwise it visits the whole listing and returns
   * SkipNode exactly when the start node or one of its later siblings was
   * skipped (a SkipNode for a deeper node is swallowed), and nil otherwise.
   */
  lemma {:induction false} WalkOutcome(ts: seq<Tree>, pt: Option<NodeType>, fn: Visitor)
    ensures var r := Walk(ts, pt, fn);
      var vs := PreOrder(Prune(ts, pt, fn), pt);
      && r.visited <= vs
      && (Fatal(r.err) <==> HasFatal(vs, fn))
      && (!Fatal(r.err) ==> r.visited == vs && (r.err == SkipNode <==> TopSkipped(ts, pt, fn)))
      && (!Fatal(r.err) ==> (r.err == Nil <==> !TopSkipped(ts, pt, fn)))
      && (Fatal(r.err) ==>
            && r.visited != []
            && r.err == fn(r.visited[|r.visited| - 1])
            && !HasFatal(r.visited[..|r.visited| - 1], fn))
  {
    var vs := PreOrder(Prune(ts, pt, fn), pt);
    WalkIsScan(ts, pt, fn);
    ScanPrefix(vs, fn, Tail(ts, pt, fn));
    if HasFatal(vs, fn) {
      ScanFails(vs, fn, Tail(ts, pt, fn));
    } else {
      ScanNoFatal(vs, fn, Tail(ts, pt, fn));
    }
  }

  /**
   * Skipping sibling `j` (the first one skipped) keeps it without its
   * subtree and drops every later sibling; the earlier ones stay, each pruned
   * in turn.
   */
  lemma {:induction false} PruneCut(ts: seq<Tree>, pt: Option<NodeType>, fn: Visitor, j: nat)
    requires j < |ts| && fn(View(ts[j], pt)) == SkipNode
    requires forall i | 0 <= i < j :: fn(View(ts[i], pt)) != SkipNode
    ensures var p := Prune(ts, pt, fn);
      && |p| == j + 1
      && p[j] == ts[j].(kids := [])
      && forall i | 0 <= i < j :: p[i] == ts[i].(kids := Prune(ts[i].kids, Some(ts[i].typ), fn))
  {
    if j > 0 {
      assert fn(View(ts[0], pt)) != SkipNode;
      forall i | 0 <= i < j - 1 ensures fn(View(ts[1..][i], pt)) != SkipNode {
        assert ts[1..][i] == ts[i + 1];
      }
      PruneCut(ts[1..], pt, fn, j - 1);
      var p, q := Prune(ts, pt, fn), Prune(ts[1..], pt, fn);
      assert p == [ts[0].(kids := Prune(ts[0].kids, Some(ts[0].typ), fn))] + q;
      forall i | 0 < i < j ensures p[i] == ts[i].(kids := Prune(ts[i].kids, Some(ts[i].typ), fn)) {
        assert p[i] == q[i - 1] && ts[1..][i - 1] == ts[i];
      }
    }
  }

  // ---------------------------------------------------------------------
  // SkipArrayNotZero
  // ---------------------------------------------------------------------

  /**
   * The filter: skip an element of an array other than element 0; pass
   * anything else on to the handler and continue.
   */
  function SkipArrayNotZero(v: NodeView): WalkError {
    if v.parentType == Some(ArrayNode) && v.index > 0 then SkipNode else Nil
  }

  /** The filter never fails a walk; it skips exactly the later elements of arrays. */
  lemma {:induction false} SkipArrayNotZeroDecides(v: NodeView)
    ensures !Fatal(SkipArrayNotZero(v))
    ensures SkipArrayNotZero(v) == SkipNode <==> v.parentType == Some(ArrayNode) && v.index > 0
  {
  }

  /** The nodes, among those visited, that the filter hands to the handler. */
  function Handled(vs: seq<NodeView>): (r: seq<NodeView>)
    ensures |r| <= |vs|
  {
    if vs == [] then []
    else (if SkipArrayNotZero(vs[0]) == Nil then [vs[0]] else []) + Handled(vs[1..])
  }

  lemma {:induction false} HandledAppend(a: seq<NodeView>, b: seq<NodeView>)
    ensures Handled(a + b) == Handled(a) + Handled(b)
  {
    if a != [] {
      assert (a + b)[0] == a[0] && (a + b)[1..] == a[1..] + b;
      HandledAppend(a[1..], b);
    } else {
      assert a + b == b;
    }
  }

  /** A tree with every array cut down to its first element, at every level. */
  function FirstElements(t: Tree): (r: Tree)
    ensures r.(kids := t.kids) == t
    decreases t, 1
  {
    t.(kids :=
      if t.typ == ArrayNode then (if t.kids == [] then [] else [FirstElements(t.kids[0])])
      else FirstElementsAll(t.kids))
  }

  function FirstElementsAll(ts: seq<Tree>): (r: seq<Tree>)
    ensures |r| == |ts|
    decreases ts, 0
  {
    if ts == [] then [] else [FirstElements(ts[0])] + FirstElementsAll(ts[1..])
  }

  lemma {:induction false} PreOrderCons(t: Tree, ts: seq<Tree>, pt: Option<NodeType>)
    ensures PreOrder([t] + ts, pt) == [View(t, pt)] + PreOrder(t.kids, Some(t.typ)) + PreOrder(ts, pt)
  {
    assert ([t] + ts)[0] == t && ([t] + ts)[1..] == ts;
  }

  /**
   * The handler, walking the children of a node that is not an array, sees
   * each child in turn with its subtree cut down to first elements.
   */
  lemma {:induction false} ForestHandled(ts: seq<Tree>, pt: Option<NodeType>)
    requires pt != Some(ArrayNode)
    requires forall i | 0 <= i < |ts| :: WellFormed(ts[i])
    ensures Handled(PreOrder(Prune(ts, pt, SkipArrayNotZero), pt)) == PreOrder(FirstElementsAll(ts), pt)
    decreases ts, 0
  {
    if ts != [] {
      var t, fn := ts[0], SkipArrayNotZero;
      var a := PreOrder(Prune(t.kids, Some(t.typ), fn), Some(t.typ));
      var b := PreOrder(Prune(ts[1..], pt, fn), pt);
      PreOrderPrune(ts, pt, fn);
      HandledAppend([View(t, pt)] + a, b);
      HandledAppend([View(t, pt)], a);
      assert Handled([View(t, pt)]) == [View(t, pt)];
      assert WellFormed(t);
      KidsHandled(t);
      forall i | 0 <= i < |ts[1..]| ensures WellFormed(ts[1..][i]) {
        assert ts[1..][i] == ts[i + 1];
      }
      ForestHandled(ts[1..], pt);
      PreOrderCons(FirstElements(t), FirstElementsAll(ts[1..]), pt);
      assert View(FirstElements(t), pt) == View(t, pt);
    }
  }

  /** The handler, walking the children of `t`, sees exactly the first-element cut of them. */
  lemma {:induction false} KidsHandled(t: Tree)
    requires WellFormed(t)
    ensures Handled(PreOrder(Prune(t.kids, Some(t.typ), SkipArrayNotZero), Some(t.typ)))
         == PreOrder(FirstElements(t).kids, Some(t.typ))
    decreases t, 2
  {
    if t.typ != ArrayNode {
      if t.typ == ObjectNode {
        forall i | 0 <= i < |t.kids| ensures WellFormed(t.kids[i]) {
          assert IsChild(t.path, t.depth, t.typ, i, t.kids[i]) && WellFormed(t.kids[i]);
        }
      }
      ForestHandled(t.kids, Some(t.typ));
    } else if t.kids != [] {
      FirstElementHandled(t);
    }
  }

  /** In a non-empty array, the handler sees element 0 with its subtree cut down, and nothing after it. */
  lemma {:induction false} FirstElementHandled(t: Tree)
    requires WellFormed(t) && t.typ == ArrayNode && t.kids != []
    ensures Handled(PreOrder(Prune(t.kids, Some(t.typ), SkipArrayNotZero), Some(t.typ)))
         == PreOrder(FirstElements(t).kids, Some(t.typ))
    decreases t, 1
  {
    var fn, pt := SkipArrayNotZero, Some(t.typ);
    var k := t.kids[0];
    assert IsChild(t.path, t.depth, t.typ, 0, k) && WellFormed(k);
    var a := PreOrder(Prune(k.kids, Some(k.typ), fn), Some(k.typ));
    var b := PreOrder(Prune(t.kids[1..], pt, fn), pt);
    PreOrderPrune(t.kids, pt, fn);
    LaterElementsHandled(t);
    HandledAppend([View(k, pt)] + a, b);
    HandledAppend([View(k, pt)], a);
    assert Handled([View(k, pt)]) == [View(k, pt)];
    KidsHandled(k);
    PreOrderCons(FirstElements(k), [], pt);
    assert View(FirstElements(k), pt) == View(k, pt);
  }

  /** In an array, element 1 is skipped, and the handler sees nothing from element 1 on. */
  lemma {:induction false} LaterElementsHandled(t: Tree)
    requires WellFormed(t) && t.typ == ArrayNode && t.kids != []
    ensures Handled(PreOrder(Prune(t.kids[1..], Some(t.typ), SkipArrayNotZero), Some(t.typ))) == []
  {
    var fn, pt := SkipArrayNotZero, Some(t.typ);
    if |t.kids| > 1 {
      assert IsChild(t.path, t.depth, t.typ, 1, t.kids[1]);
      var rest := t.kids[1..];
      assert rest[0] == t.kids[1];
      var p := [rest[0].(kids := [])];
      assert Prune(rest, pt, fn) == p;
      assert p[0] == rest[0].(kids := []) && p[1..] == [];
      var b := PreOrder(p, pt);
      assert b == [View(rest[0], pt)];
      assert b[1..] == [];
    }
  }

  /**
   * Walking a parsed document with SkipArrayNotZero: the walk returns nil, and
   * the handler is called once for each node of the document with every array
   * cut down to its first element, in document order.
   */
  lemma {:induction false} HandlerSeesFirstElements(t: Tree)
    requires WellFormed(t)
    ensures var r := Walk([t], None, SkipArrayNotZero);
      r.err == Nil && Handled(r.visited) == PreOrder([FirstElements(t)], None)
  {
    var fn := SkipArrayNotZero;
    var vs := PreOrder(Prune([t], None, fn), None);
    WalkIsScan([t], None, fn);
    assert !TopSkipped([t], None, fn);
    assert !HasFatal(vs, fn);
    ScanNoFatal(vs, fn, Tail([t], None, fn));
    ForestHandled([t], None);
    assert FirstElementsAll([t]) == [FirstElements(t)] by {
      assert [t][0] == t && [t][1..] == [];
    }
  }

  /**
   * Under SkipArrayNotZero only elements 0 and 1 of an array are ever passed to
   * the filter, for children numbered on from `from`.
   */
  lemma {:induction false} ArrayVisits(ts: seq<Tree>, pt: Option<NodeType>, from: nat)
    requires forall i | 0 <= i < |ts| :: WellFormed(ts[i])
    requires pt == Some(ArrayNode) ==> from <= 1 && forall i | 0 <= i < |ts| :: ts[i].index == from + i
    ensures forall v | v in PreOrder(Prune(ts, pt, SkipArrayNotZero), pt) ::
      v.parentType == Some(ArrayNode) ==> v.index <= 1
    decreases ts
  {
    var fn := SkipArrayNotZero;
    if ts != [] {
      var t := ts[0];
      if fn(View(t, pt)) == SkipNode {
        var p := [t.(kids := [])];
        assert p[0] == t.(kids := []) && p[1..] == [];
        assert PreOrder(p, pt) == [View(t, pt)];
        assert t.index == from + 0;
      } else {
        PreOrderPrune(ts, pt, fn);
        assert WellFormed(t);
        if t.typ == ObjectNode || t.typ == ArrayNode {
          assert ChildrenOf(t.path, t.depth, t.typ, t.kids);
          forall i | 0 <= i < |t.kids| ensures WellFormed(t.kids[i]) && (t.typ == ArrayNode ==> t.kids[i].index == 0 + i) {
            assert IsChild(t.path, t.depth, t.typ, i, t.kids[i]) && WellFormed(t.kids[i]);
          }
        }
        ArrayVisits(t.kids, Some(t.typ), 0);
        forall i | 0 <= i < |ts[1..]|
          ensures WellFormed(ts[1..][i]) && (pt == Some(ArrayNode) ==> ts[1..][i].index == (from + 1) + i)
        {
          assert ts[1..][i] == ts[i + 1];
        }
        if pt == Some(ArrayNode) {
          assert t.index == from + 0;
        }
        ArrayVisits(ts[1..], pt, from + 1);
      }
    }
  }

  /** Walking a parsed document with SkipArrayNotZero never offers element 2 or later of an array. */
  lemma {:induction false} NoLaterElementVisited(t: Tree)
    requires WellFormed(t)
    ensures forall v | v in Walk([t], None, SkipArrayNotZero).visited ::
      v.parentType == Some(ArrayNode) ==> v.index <= 1
  {
    WalkOutcome([t], None, SkipArrayNotZero);
    ArrayVisits([t], None, 0);
  }
}

=== FILE: walk_spec.dfy ===
/**
 * The walk of node.go (Walk, walk, SkipNode) as a function over trees, and
 * what it visits: the document-order listing of the tree cut short at every
 * skipped node and at the first fatal visitor error.
 */
module WalkSpec {
  import opened Wrappers
  import opened Tokens
  import opened TreeSpec

  /**
   * What the visitor is shown of a node: its own fields and its parent's type
   * (`None` when it has no parent).
   */
  datatype NodeView = NodeView(
    path: string,
    key: string,
    value: Token,
    typ: NodeType,
    index: int,
    depth: int,
    parentType: Option<NodeType>)

  /**
   * The Go error values a walk deals in: nil, the `SkipNode` sentinel, the
   * "nil root node" error of Walk, and anything else a visitor may return.
   */
  datatype WalkError = Nil | SkipNode | NilRootNode | Failure(code: nat)

  /** An error that ends the whole walk. */
  predicate Fatal(e: WalkError) {
    e != Nil && e != SkipNode
  }

  /** A WalkFunc: a node's view in, an error (or nil) out. */
  type Visitor = NodeView -> WalkError

  /** The nodes passed to the visitor, in order, and the error returned. */
  datatype Outcome = Outcome(visited: seq<NodeView>, err: WalkError)

  function View(t: Tree, parentType: Option<NodeType>): NodeView {
    NodeView(t.path, t.key, t.value, t.typ, t.index, t.depth, parentType)
  }

  /**
   * walk started at `ts[0]`, where `ts` is that node followed by its later
   * siblings, all children of a node of type `pt`. A node's children are walked
   * only when the visitor returned nil for it; a SkipNode from that inner walk
   * is swallowed, any other error ends everything.
   */
  function Walk(ts: seq<Tree>, pt: Option<NodeType>, fn: Visitor): (r: Outcome)
    ensures |r.visited| <= ForestSize(ts)
    ensures r.visited == [] <==> ts == []
    ensures ts != [] ==> r.visited[0] == View(ts[0], pt)
    ensures Fatal(r.err) ==> r.visited != [] && r.err == fn(r.visited[|r.visited| - 1])
    decreases ts
  {
    if ts == [] then Outcome([], Nil)
    else
      var v := View(ts[0], pt);
      var e := fn(v);
      if e != Nil then Outcome([v], e)
      else
        var sub := Walk(ts[0].kids, Some(ts[0].typ), fn);
        if Fatal(sub.err) then Outcome([v] + sub.visited, sub.err)
        else
          var rest := Walk(ts[1..], pt, fn);
          Outcome([v] + sub.visited + rest.visited, rest.err)
  }

  // ---------------------------------------------------------------------
  // Reference definitions
  // ---------------------------------------------------------------------

  /** Document order: each node, then its subtree, then its later siblings. */
  function PreOrder(ts: seq<Tree>, pt: Option<NodeType>): (r: seq<NodeView>)
    ensures |r| == ForestSize(ts)
    decreases ts
  {
    if ts == [] then []
    else [View(ts[0], pt)] + PreOrder(ts[0].kids, Some(ts[0].typ)) + PreOrder(ts[1..], pt)
  }

  /**
   * The forest cut at every node the visitor skips: such a node stays, without
   * children, and its later siblings go.
   */
  function Prune(ts: seq<Tree>, pt: Option<NodeType>, fn: Visitor): seq<Tree>
    decreases ts
  {
    if ts == [] then []
    else if fn(View(ts[0], pt)) == SkipNode then [ts[0].(kids := [])]
    else [ts[0].(kids := Prune(ts[0].kids, Some(ts[0].typ), fn))] + Prune(ts[1..], pt, fn)
  }

  /** The visitor skips the start node or one of its later siblings. */
  predicate TopSkipped(ts: seq<Tree>, pt: Option<NodeType>, fn: Visitor) {
    exists j | 0 <= j < |ts| :: fn(View(ts[j], pt)) == SkipNode
  }

  predicate HasFatal(vs: seq<NodeView>, fn: Visitor) {
    exists i | 0 <= i < |vs| :: Fatal(fn(vs[i]))
  }

  /**
   * Offering `vs` to the visitor one by one until it returns a fatal error;
   * `tail` is the result when none does.
   */
  function Scan(vs: seq<NodeView>, fn: Visitor, tail: WalkError): Outcome {
    if vs == [] then Outcome([], tail)
    else if Fatal(fn(vs[0])) then Outcome([vs[0]], fn(vs[0]))
    else
      var r := Scan(vs[1..], fn, tail);
      Outcome([vs[0]] + r.visited, r.err)
  }

  // ---------------------------------------------------------------------
  // Scan over concatenations
  // ---------------------------------------------------------------------

  lemma {:induction false} ScanClean(a: seq<NodeView>, b: seq<NodeView>, fn: Visitor, tail: WalkError)
    requires !HasFatal(a, fn)
    ensures Scan(a + b, fn, tail) == Outcome(a + Scan(b, fn, tail).visited, Scan(b, fn, tail).err)
  {
    if a != [] {
      assert (a + b)[0] == a[0] && (a + b)[1..] == a[1..] + b;
      assert !Fatal(fn(a[0]));
      assert !HasFatal(a[1..], fn) by {
        forall i | 0 <= i < |a[1..]| ensures !Fatal(fn(a[1..][i])) {
          assert a[1..][i] == a[i + 1];
        }
      }
      ScanClean(a[1..], b, fn, tail);
      assert [a[0]] + a[1..] == a;
    } else {
      assert a + b == b;
    }
  }

  lemma {:induction false} ScanFatal(a: seq<NodeView>, b: seq<NodeView>, fn: Visitor, t1: WalkError, t2: WalkError)
    requires HasFatal(a, fn)
    ensures Scan(a + b, fn, t1) == Scan(a, fn, t2)
    ensures Fatal(Scan(a, fn, t2).err)
  {
    assert a != [];
    assert (a + b)[0] == a[0] && (a + b)[1..] == a[1..] + b;
    if !Fatal(fn(a[0])) {
      var i :| 0 <= i < |a| && Fatal(fn(a[i]));
      assert a[1..][i - 1] == a[i];
      ScanFatal(a[1..], b, fn, t1, t2);
    }
  }

  lemma {:induction false} ScanNoFatal(vs: seq<NodeView>, fn: Visitor, tail: WalkError)
    requires !HasFatal(vs, fn)
    ensures Scan(vs, fn, tail) == Outcome(vs, tail)
  {
    ScanClean(vs, [], fn, tail);
    assert vs + [] == vs;
  }

  lemma {:induction false} HasFatalCons(vs: seq<NodeView>, fn: Visitor)
    requires vs != []
    ensures HasFatal(vs, fn) <==> Fatal(fn(vs[0])) || HasFatal(vs[1..], fn)
  {
    if HasFatal(vs, fn) && !Fatal(fn(vs[0])) {
      var i :| 0 <= i < |vs| && Fatal(fn(vs[i]));
      assert vs[1..][i - 1] == vs[i];
    }
    if HasFatal(vs[1..], fn) {
      var i :| 0 <= i < |vs[1..]| && Fatal(fn(vs[1..][i]));
      assert vs[i + 1] == vs[1..][i];
    }
  }

  /** A scan offers the visitor a prefix of `vs`. */
  lemma {:induction false} ScanPrefix(vs: seq<NodeView>, fn: Visitor, tail: WalkError)
    ensures Scan(vs, fn, tail).visited <= vs
  {
    if vs != [] && !Fatal(fn(vs[0])) {
      ScanPrefix(vs[1..], fn, tail);
      assert vs == [vs[0]] + vs[1..];
    }
  }

  /**
   * When some node of `vs` fails, the scan stops at the first such node and
   * returns its error: every node before it passed.
   */
  lemma {:induction false} ScanFails(vs: seq<NodeView>, fn: Visitor, tail: WalkError)
    requires HasFatal(vs, fn)
    ensures var r := Scan(vs, fn, tail);
      && r.visited != []
      && Fatal(r.err)
      && r.err == fn(r.visited[|r.visited| - 1])
      && !HasFatal(r.visited[..|r.visited| - 1], fn)
  {
    HasFatalCons(vs, fn);
    if !Fatal(fn(vs[0])) {
      var r, r' := Scan(vs, fn, tail), Scan(vs[1..], fn, tail);
      ScanFails(vs[1..], fn, tail);
      var n := |r'.visited|;
      assert r.visited == [vs[0]] + r'.visited;
      assert r.visited[n] == r'.visited[n - 1];
      var before := r.visited[..n];
      assert before[0] == vs[0] && before[1..] == r'.visited[..n - 1];
      HasFatalCons(before, fn);
    } else {
      assert !HasFatal(Scan(vs, fn, tail).visited[..0], fn);
    }
  }

  // ---------------------------------------------------------------------
  // What a walk visits
  // ---------------------------------------------------------------------

  /** Offering a node that is not fatal, then the rest. */
  lemma {:induction false} ScanCons(v: NodeView, a: seq<NodeView>, b: seq<NodeView>, fn: Visitor, tail: WalkError)
    requires !Fatal(fn(v))
    ensures Scan([v] + a + b, fn, tail) == Outcome([v] + Scan(a + b, fn, tail).visited, Scan(a + b, fn, tail).err)
  {
    assert ([v] + a + b)[0] == v && ([v] + a + b)[1..] == a + b;
  }

  /** The listing of a pruned forest whose first node is not skipped. */
  lemma {:induction false} PreOrderPrune(ts: seq<Tree>, pt: Option<NodeType>, fn: Visitor)
    requires ts != [] && fn(View(ts[0], pt)) != SkipNode
    ensures PreOrder(Prune(ts, pt, fn), pt)
      == [View(ts[0], pt)] + PreOrder(Prune(ts[0].kids, Some(ts[0].typ), fn), Some(ts[0].typ))
         + PreOrder(Prune(ts[1..], pt, fn), pt)
  {
    var t := ts[0];
    var p := [t.(kids := Prune(t.kids, Some(t.typ), fn))] + Prune(ts[1..], pt, fn);
    assert p[0] == t.(kids := Prune(t.kids, Some(t.typ), fn)) && p[1..] == Prune(ts[1..], pt, fn);
  }

  /** A start node the visitor does not skip leaves the question to its later siblings. */
  lemma {:induction false} TopSkippedTail(ts: seq<Tree>, pt: Option<NodeType>, fn: Visitor)
    requires ts != [] && fn(View(ts[0], pt)) != SkipNode
    ensures TopSkipped(ts, pt, fn) <==> TopSkipped(ts[1..], pt, fn)
  {
    if TopSkipped(ts, pt, fn) {
      var j :| 0 <= j < |ts| && fn(View(ts[j], pt)) == SkipNode;
      assert j > 0 && ts[1..][j - 1] == ts[j];
    }
    if TopSkipped(ts[1..], pt, fn) {
      var j :| 0 <= j < |ts[1..]| && fn(View(ts[1..][j], pt)) == SkipNode;
      assert ts[j + 1] == ts[1..][j];
    }
  }

  /** The start node is skipped: it alone is visited, and SkipNode returned. */
  lemma {:induction false} WalkSkipped(ts: seq<Tree>, pt: Option<NodeType>, fn: Visitor)
    requires ts != [] && fn(View(ts[0], pt)) == SkipNode
    ensures Walk(ts, pt, fn) == Scan(PreOrder(Prune(ts, pt, fn), pt), fn, SkipNode)
    ensures TopSkipped(ts, pt, fn)
  {
    var v := View(ts[0], pt);
    var p := [ts[0].(kids := [])];
    assert p[0] == ts[0].(kids := []) && p[1..] == [];
    assert PreOrder(p, pt) == [v];
    assert [v][1..] == [];
  }

  /** The start node's visit fails: it alone is visited, and its error returned. */
  lemma {:induction false} WalkFailed(ts: seq<Tree>, pt: Option<NodeType>, fn: Visitor, tail: WalkError)
    requires ts != [] && Fatal(fn(View(ts[0], pt)))
    ensures Walk(ts, pt, fn) == Scan(PreOrder(Prune(ts, pt, fn), pt), fn, tail)
  {
    PreOrderPrune(ts, pt, fn);
  }

  /** What a walk returns when nothing fails: SkipNode if the start node or a later sibling was skipped. */
  function Tail(ts: seq<Tree>, pt: Option<NodeType>, fn: Visitor): (e: WalkError)
    ensures !Fatal(e)
    ensures e == SkipNode <==> TopSkipped(ts, pt, fn)
  {
    if TopSkipped(ts, pt, fn) then SkipNode else Nil
  }

  /** The start node's visit succeeds and its subtree's walk fails: nothing after the failure is visited. */
  lemma {:induction false} WalkDescendedFailed(ts: seq<Tree>, pt: Option<NodeType>, fn: Visitor, sub: Outcome, a: seq<NodeView>, b: seq<NodeView>)
    requires ts != [] && fn(View(ts[0], pt)) == Nil
    requires sub == Walk(ts[0].kids, Some(ts[0].typ), fn) && Fatal(sub.err)
    requires sub == Scan(a, fn, Tail(ts[0].kids, Some(ts[0].typ), fn)) && HasFatal(a, fn)
    ensures Walk(ts, pt, fn) == Scan([View(ts[0], pt)] + a + b, fn, Tail(ts, pt, fn))
  {
    var v := View(ts[0], pt);
    ScanCons(v, a, b, fn, Tail(ts, pt, fn));
    ScanFatal(a, b, fn, Tail(ts, pt, fn), Tail(ts[0].kids, Some(ts[0].typ), fn));
  }

  /** Visiting `v` before an outcome that starts with `a` is visiting `[v] + a` before the rest. */
  lemma PrependVisit(v: NodeView, a: seq<NodeView>, rest: Outcome, x: Outcome)
    requires x == Outcome(a + rest.visited, rest.err)
    ensures Outcome([v] + a + rest.visited, rest.err) == Outcome([v] + x.visited, x.err)
  {
    assert [v] + a + rest.visited == [v] + (a + rest.visited);
  }

  /** One unfolding of Walk when neither the start node's visit nor its subtree's walk fails. */
  lemma WalkClean(ts: seq<Tree>, pt: Option<NodeType>, fn: Visitor)
    requires ts != [] && fn(View(ts[0], pt)) == Nil
    requires !Fatal(Walk(ts[0].kids, Some(ts[0].typ), fn).err)
    ensures Walk(ts, pt, fn)
      == Outcome([View(ts[0], pt)] + Walk(ts[0].kids, Some(ts[0].typ), fn).visited + Walk(ts[1..], pt, fn).visited,
                 Walk(ts[1..], pt, fn).err)
  {
  }

  /** The start node's visit succeeds and its subtree's walk does not fail: the siblings come next. */
  lemma {:induction false} WalkDescendedClean(ts: seq<Tree>, pt: Option<NodeType>, fn: Visitor, sub: Outcome, a: seq<NodeView>, b: seq<NodeView>)
    requires ts != [] && fn(View(ts[0], pt)) == Nil
    requires sub == Walk(ts[0].kids, Some(ts[0].typ), fn) && sub.visited == a && !Fatal(sub.err)
    requires !HasFatal(a, fn)
    requires Walk(ts[1..], pt, fn) == Scan(b, fn, Tail(ts, pt, fn))
    ensures Walk(ts, pt, fn) == Scan([View(ts[0], pt)] + a + b, fn, Tail(ts, pt, fn))
  {
    var v, tail := View(ts[0], pt), Tail(ts, pt, fn);
    WalkClean(ts, pt, fn);
    ScanCons(v, a, b, fn, tail);
    ScanClean(a, b, fn, tail);
    PrependVisit(v, a, Walk(ts[1..], pt, fn), Scan(a + b, fn, tail));
  }

  /** The start node's visit succeeds: its subtree is walked, then, unless that failed, its siblings. */
  lemma {:induction false} WalkDescended(ts: seq<Tree>, pt: Option<NodeType>, fn: Visitor)
    requires ts != [] && fn(View(ts[0], pt)) == Nil
    requires var kt := Some(ts[0].typ);
      Walk(ts[0].kids, kt, fn) == Scan(PreOrder(Prune(ts[0].kids, kt, fn), kt), fn, Tail(ts[0].kids, kt, fn))
    requires Walk(ts[1..], pt, fn) == Scan(PreOrder(Prune(ts[1..], pt, fn), pt), fn, Tail(ts[1..], pt, fn))
    ensures Walk(ts, pt, fn) == Scan(PreOrder(Prune(ts, pt, fn), pt), fn, Tail(ts, pt, fn))
  {
    var kt := Some(ts[0].typ);
    var sub := Walk(ts[0].kids, kt, fn);
    var a := PreOrder(Prune(ts[0].kids, kt, fn), kt);
    var b := PreOrder(Prune(ts[1..], pt, fn), pt);
    PreOrderPrune(ts, pt, fn);
    TopSkippedTail(ts, pt, fn);
    if HasFatal(a, fn) {
      ScanFatal(a, [], fn, Nil, Tail(ts[0].kids, kt, fn));
      WalkDescendedFailed(ts, pt, fn, sub, a, b);
    } else {
      ScanNoFatal(a, fn, Tail(ts[0].kids, kt, fn));
      WalkDescendedClean(ts, pt, fn, sub, a, b);
    }
  }

  /**
   * The walk offers the visitor the document-order listing of the pruned
   * forest, and stops at the first fatal error; without one it returns
   * SkipNode exactly when the start node or a later sibling was skipped.
   */
  lemma {:induction false} WalkIsScan(ts: seq<Tree>, pt: Option<NodeType>, fn: Visitor)
    ensures Walk(ts, pt, fn) == Scan(PreOrder(Prune(ts, pt, fn), pt), fn, Tail(ts, pt, fn))
    decreases ts
  {
    if ts != [] {
      var e := fn(View(ts[0], pt));
      if e == SkipNode {
        WalkSkipped(ts, pt, fn);
      } else if e != Nil {
        WalkFailed(ts, pt, fn, Tail(ts, pt, fn));
      } else {
        WalkIsScan(ts[0].kids, Some(ts[0].typ), fn);
        WalkIsScan(ts[1..], pt, fn);
        WalkDescended(ts, pt, fn);
      }
    }
  }
}

=== FILE: walker.dfy ===
/**
 * The walk of node.go over linked nodes: Node.Walk, walk with its sibling
 * loop, and the SkipArrayNotZero filter reading the parent's type. The walk
 * is proved to return exactly what WalkSpec.Walk returns for the trees the
 * nodes hold, so every fact proved about WalkSpec.Walk holds for it.
 */
module Walker {
  import opened Wrappers
  import opened Tokens
  import opened TreeSpec
  import opened Nodes
  import opened WalkSpec
  import WalkFacts

  /** The type of a node's parent as the visitor sees it, `None` without a parent. */
  function ParentType(parent: Node?): Option<NodeType>
    reads parent
  {
    if parent == null then None else Some(parent.Type)
  }

  /** What a visitor is handed for `n`: its fields and its parent's type. */
  function ViewOf(n: Node): (v: NodeView)
    reads n, n.Parent
    ensures v.parentType == ParentType(n.Parent)
  {
    NodeView(n.Path, n.Key, n.Value, n.Type, n.Index, n.Depth, ParentType(n.Parent))
  }

  /**
   * The nodes reached from `n` through NextSibling links, all within `heap`,
   * hold `ts` under `parent`, one tree each: `n` is nil when `ts` is empty,
   * and otherwise shows ts[0] and its next sibling starts the chain of ts[1..].
   */
  ghost predicate Chain(n: Node?, ts: seq<Tree>, parent: Node?, heap: set<Node>)
    reads heap
    decreases ts, 1
  {
    if ts == [] then n == null
    else n != null && Shows(n, ts[0], parent, heap) && Chain(n.NextSibling, ts[1..], parent, heap)
  }

  /**
   * `n`, within `heap`, has `parent` as Parent and the fields of `t`, and its
   * first child starts the chain of `t`'s children.
   */
  ghost predicate Shows(n: Node, t: Tree, parent: Node?, heap: set<Node>)
    reads heap
    decreases t, 0
  {
    && n in heap
    && n.Parent == parent
    && n.Path == t.path && n.Key == t.key && n.Value == t.value && n.Type == t.typ
    && n.Index == t.index && n.Depth == t.depth
    && Chain(n.FirstChild, t.kids, n, heap)
  }

  /**
   * In a built subtree, the children from number `k` on form a chain under
   * `n`: the links the builder set follow the order of the children.
   */
  lemma {:induction false} KidsChain(n: Node, t: Tree, k: nat, heap: set<Node>)
    requires Builds(n, t) && n.Repr <= heap && k <= |t.kids|
    ensures Chain(if k >= |n.Kids| then null else n.Kids[k], t.kids[k..], n, heap)
    decreases t, |t.kids| - k
  {
    assert Forest(n, t.kids) && Holds(n.Kids, t.kids);
    if k < |t.kids| {
      var c, tc := n.Kids[k], t.kids[k];
      assert Builds(c, tc) && c.Repr <= n.Repr && c.Parent == n;
      assert Forest(c, tc.kids) && Links(c);
      KidsChain(c, tc, 0, heap);
      assert tc.kids[0..] == tc.kids;
      KidsChain(n, t, k + 1, heap);
      assert c.NextSibling == if k + 1 == |n.Kids| then null else n.Kids[k + 1];
      assert t.kids[k..][0] == tc && t.kids[k..][1..] == t.kids[k + 1..];
    }
  }

  /**
   * A built node without a next sibling (the root a parse returns, say)
   * starts a chain of its own tree within its footprint.
   */
  lemma {:induction false} BuildsChain(n: Node, t: Tree)
    requires Builds(n, t) && n.NextSibling == null
    ensures Chain(n, [t], n.Parent, n.Repr)
  {
    KidsChain(n, t, 0, n.Repr);
    assert t.kids[0..] == t.kids;
    assert [t][0] == t && [t][1..] == [];
  }

  /**
   * One turn of walk, for the first of `later`: `goal` is the outcome of the
   * whole walk and `visited` what it visited before `later`. A visit that
   * returns an error ends the walk with it; so does a fatal error from the
   * walk of the node's children; otherwise the turn adds the node and what
   * its children's walk visited, and the siblings after it come next.
   */
  lemma {:induction false} WalkTurn(goal: Outcome, visited: seq<NodeView>, later: seq<Tree>, pt: Option<NodeType>, fn: Visitor)
    requires later != []
    requires goal == Outcome(visited + Walk(later, pt, fn).visited, Walk(later, pt, fn).err)
    ensures var v, e := View(later[0], pt), fn(View(later[0], pt));
      var sub := Walk(later[0].kids, Some(later[0].typ), fn);
      && (e != Nil ==> goal == Outcome(visited + [v], e))
      && (e == Nil && Fatal(sub.err) ==> goal == Outcome(visited + [v] + sub.visited, sub.err))
      && (e == Nil && !Fatal(sub.err) ==> var rest := Walk(later[1..], pt, fn);
            goal == Outcome(visited + [v] + sub.visited + rest.visited, rest.err))
  {
    var v, sub, rest := View(later[0], pt), Walk(later[0].kids, Some(later[0].typ), fn), Walk(later[1..], pt, fn);
    assert visited + ([v] + sub.visited) == visited + [v] + sub.visited;
    assert visited + ([v] + sub.visited + rest.visited) == visited + [v] + sub.visited + rest.visited;
  }

  /** The end of the sibling loop: nothing is left to walk, and the walk returns nil. */
  lemma WalkDone(goal: Outcome, visited: seq<NodeView>, pt: Option<NodeType>, fn: Visitor)
    requires goal == Outcome(visited + Walk([], pt, fn).visited, Walk([], pt, fn).err)
    ensures goal == Outcome(visited, Nil)
  {
    assert visited + [] == visited;
  }

  /**
   * What walk does for one node, first for the start node and then in each
   * turn of its sibling loop: visit the node and, unless the visitor
   * returned an error, walk its children.
   */
  method Visit(node: Node, fn: Visitor, ghost parent: Node?, ghost pt: Option<NodeType>, ghost heap: set<Node>, ghost t: Tree)
    returns (v: NodeView, err: WalkError, sub: Outcome)
    requires Shows(node, t, parent, heap) && pt == ParentType(parent)
    ensures v == View(t, pt) && err == fn(v)
    ensures err == Nil ==> sub == Walk(t.kids, Some(t.typ), fn)
    decreases t
  {
    v := ViewOf(node);
    err := fn(v);
    if err != Nil {
      return v, err, Outcome([], Nil);
    }
    sub := WalkFrom(node.FirstChild, fn, node, Some(node.Type), heap, t.kids);
  }

  /**
   * walk: visits `node`, then (unless the visitor returned an error) its
   * children, then each later sibling with its children in turn. A SkipNode
   * from a children's walk is swallowed; any other error, and any error from
   * a visit, is returned at once. `ts` are the trees the chain from `node`
   * holds under `parent`, and `pt` is the parent's type.
   */
  method WalkFrom(node: Node?, fn: Visitor, ghost parent: Node?, ghost pt: Option<NodeType>, ghost heap: set<Node>, ghost ts: seq<Tree>)
    returns (r: Outcome)
    requires Chain(node, ts, parent, heap) && pt == ParentType(parent)
    ensures r == Walk(ts, pt, fn)
    decreases ts
  {
    ghost var goal := Walk(ts, pt, fn);
    if node == null {
      return Outcome([], Nil);
    }
    assert goal == Outcome([] + Walk(ts, pt, fn).visited, Walk(ts, pt, fn).err);
    WalkTurn(goal, [], ts, pt, fn);
    var v, err, sub := Visit(node, fn, parent, pt, heap, ts[0]);
    if err != Nil {
      return Outcome([v], err);
    }
    if sub.err != Nil && sub.err != SkipNode {
      return Outcome([v] + sub.visited, sub.err);
    }
    var visited := [v] + sub.visited;
    var curr := node.NextSibling;
    ghost var later := ts[1..];
    while curr != null
      invariant forall t | t in later :: t in ts
      invariant Chain(curr, later, parent, heap)
      invariant goal == Outcome(visited + Walk(later, pt, fn).visited, Walk(later, pt, fn).err)
      decreases |later|
    {
      assert later[0] in ts;
      WalkTurn(goal, visited, later, pt, fn);
      v, err, sub := Visit(curr, fn, parent, pt, heap, later[0]);
      if err != Nil {
        return Outcome(visited + [v], err);
      }
      if sub.err != Nil && sub.err != SkipNode {
        return Outcome(visited + [v] + sub.visited, sub.err);
      }
      visited := visited + [v] + sub.visited;
      curr := curr.NextSibling;
      later := later[1..];
    }
    WalkDone(goal, visited, pt, fn);
    return Outcome(visited, Nil);
  }

  /**
   * Node.Walk: a nil node is the "nil root node" error and nothing is
   * visited; otherwise the walk from the node (its later siblings included).
   */
  method WalkNode(node: Node?, fn: Visitor, ghost heap: set<Node>, ghost ts: seq<Tree>) returns (r: Outcome)
    requires node != null ==> Chain(node, ts, node.Parent, heap)
    ensures node == null ==> r == Outcome([], NilRootNode)
    ensures node != null ==> r == Walk(ts, ParentType(node.Parent), fn)
  {
    if node == null {
      return Outcome([], NilRootNode);
    }
    r := WalkFrom(node, fn, node.Parent, ParentType(node.Parent), heap, ts);
  }

  /**
   * The WalkFunc SkipArrayNotZero returns, as far as the walk sees it: a node
   * whose parent is an array and whose index is positive is skipped;
   * anything else goes to the handler and the walk carries on.
   */
  function SkipArrayNotZero(node: Node): (e: WalkError)
    reads node, node.Parent
    ensures e == WalkFacts.SkipArrayNotZero(ViewOf(node))
    ensures e == SkipNode <==> node.Parent != null && node.Parent.Type == ArrayNode && node.Index > 0
    ensures e != SkipNode ==> e == Nil
  {
    var parent := node.Parent;
    if parent != null && parent.Type == ArrayNode && node.Index > 0 then SkipNode else Nil
  }
}

=== FILE: wrappers.dfy ===
/** Failure-carrying values shared by the tree builder and the walker. */
module Wrappers {

  datatype Option<+T> = None | Some(value: T)

  /** A Go `(value, error)` pair where exactly one side is meaningful. */
  datatype Result<+T, +E> = Ok(value: T) | Err(error: E)
}
